=== FILE: README.md ===
# gpustat-rs, modelled in Dafny

gpustat-rs samples NVIDIA GPUs through the NVML driver library and prints
one line per device: index, name, temperature, fan, utilization, codec and
power readings, memory, and the processes on the device with their owners
and commands. This project models its core in four modules:

- `Text` holds the Rust standard-library behaviour the core relies on:
  - UTF-8 byte lengths of `str`;
  - byte slices that panic off a char boundary;
  - decimal digit strings: their value, printing, and leading zeros;
  - `trim`, `split` and `contains`.
- `Core` (src/core.rs) builds one `GpuStat` per requested device from the
  driver's answers. It merges the compute and graphics process lists: the
  first entry for each pid wins. It attributes each process through the
  host's process table, and replaces a device that fails with an
  "unavailable" placeholder.
- `Display` (src/display.rs) holds `shorten_left`, `opt_repr`, `rjust`,
  `format_process`, `format_line` and the plain-text `print_formatted`: the
  header, the auto-sized name column and the no-GPU message.
- `Cli` (src/main.rs) models the start of `main`: `--version`, the two
  flag conflicts, the `--id` list with its `u32` parsing, and the display
  options derived from the flags.

The driver (`Nvml`, `Device`) is a value holding each query's answer,
`Ok` or `Err`. The process table is a map from pid to what the code reads
of `/proc`. The host name and the formatted query time are parameters.
Four parts of the code work step by step and are methods with loops: the
sampling loop of `new_query`, the merge loop of `get_gpu_info`, the process
loop of `format_line`, and the device loop of `print_formatted`.
`format_process` and the rest of `format_line` are methods of straight-line
appends to a string. Each method is proved equal to a specification
function, and the properties are proved about those functions.

Three points of the code that are easy to misread:

- The username is hidden only when `--show-cmd` is given without
  `--show-user`: `show_username` is `show_user || !show_cmd`
  (src/display.rs:207). With neither flag the username is shown, and
  `Display.ScenarioNeither` proves " alice(2048M)".
- The `--show-power` override at src/main.rs:130-136 sets the same values
  the initializer at src/main.rs:118-121 already set. The contract of
  `Cli.BuildDisplayOptions` holds with or without it.
- src/core.rs:15-20 declares `GpuProcessInfo` with four fields.
  src/display.rs:211 and src/display.rs:233 read two more:
  `username_from_ngid_mapping` and `real_pid`. The model carries both.
  The sampler sets them to `false` and `None`, because nothing in
  src/core.rs fills them.

## Model

| member | source | states |
|---|---|---|
| Text.ByteLen | src/display.rs:17 | A string's UTF-8 length is at least its char count, and at least the length of its first char. |
| Text.ByteLenConcat | src/display.rs:23 | Byte length adds up over concatenation. |
| Text.ByteLenAscii | src/display.rs:17 | On ASCII text, byte length equals char count. |
| Text.FloorPrefixLongest | src/display.rs:21 | The rounded prefix is a prefix that fits in `n` bytes, and one more char would not fit. |
| Text.CeilSuffixLongest | src/display.rs:23 | The rounded suffix is a suffix that fits in `n` bytes, and one more char would not fit. |
| Text.BytePrefixIsFloor | src/display.rs:21 | Wherever `&s[..n]` does not panic, it equals the rounded prefix. |
| Text.ByteSuffixIsCeil | src/display.rs:23 | Wherever the tail slice does not panic, it equals the rounded suffix. |
| Text.BytePrefixExact | src/display.rs:21 | A prefix slice that does not panic is exactly `n` bytes long. |
| Text.ByteSuffixExact | src/display.rs:23 | A tail slice that does not panic is exactly `n` bytes long. |
| Text.BytePrefixAtBoundary | src/display.rs:21 | A prefix slice that ends at a char boundary does not panic and gives the chars before it. |
| Text.ByteSuffixAtBoundary | src/display.rs:23 | A tail slice that starts at a char boundary does not panic and gives the chars after it. |
| Text.BytePrefixWhole | src/display.rs:21 | Slicing at the full byte length keeps the whole string and does not panic. |
| Text.ByteSuffixOneByteChars | src/display.rs:23 | On one-byte chars, no tail slice up to the length panics. |
| Text.CeilSuffixOneByteChars | src/display.rs:23 | On one-byte chars, the rounded suffix is the plain last `n` chars and is exactly `n` bytes. |
| Text.NatToString | src/display.rs:45 | A printed number is a non-empty run of digits with no leading zero. |
| Text.DecimalRoundTrip | src/display.rs:45 | Reading a printed number back gives the number. |
| Text.DecimalLeadingZeros | src/main.rs:107 | Leading zeros do not change the value of a digit string. |
| Text.CanonicalDecimal | src/display.rs:45 | A digit string with no leading zero is the printed form of its value. |
| Text.PaddedDecimal | src/main.rs:107 | Every digit string is the printed form of its value after some leading zeros. |
| Text.DecimalLength | src/display.rs:180 | A number below 10^k prints in at most k digits. |
| Text.TrimStart | src/main.rs:107 | The result is a suffix of the input; everything cut is whitespace; it does not start with whitespace. |
| Text.TrimEnd | src/main.rs:107 | The result is a prefix of the input; everything cut is whitespace; it does not end with whitespace. |
| Text.Trim | src/main.rs:107 | The trimmed string is no longer than the input and has no whitespace at either end. |
| Text.TrimCutsOnlyWhitespace | src/main.rs:107 | The trimmed string is a contiguous piece of the input with only whitespace around it. |
| Text.TrimUnchanged | src/main.rs:107 | Text with no whitespace at either end is its own trim. |
| Text.Split | src/main.rs:106 | `split(',')` yields at least one piece, and no piece contains the separator. |
| Text.SplitNoSeparator | src/main.rs:106 | Text without the separator splits into itself alone. |
| Text.SplitConcat | src/main.rs:106 | Splitting `a,b` gives the pieces of `a` followed by the pieces of `b`. |
| Text.SplitJoin | src/main.rs:106 | Split undoes join when no piece holds the separator. |
| Text.JoinSplit | src/main.rs:106 | Join undoes split: the pieces rejoined give the original text. |
| Core.BytesToMb | src/core.rs:163-164 | Memory in megabytes is the byte count in whole MiB, rounded down. |
| Core.MilliwattsToWatts | src/core.rs:173-174 | Power in watts is the milliwatt reading in whole watts, rounded down. |
| Core.ProcessMemoryMb | src/core.rs:197-200 | A process's memory is present exactly when the driver gives a byte count, and is then that count in whole MiB. |
| Core.MegabytesMonotone | src/core.rs:163-164 | Converting to megabytes keeps the order of two byte counts. |
| Core.FileName | src/core.rs:126-129 | A file name, when there is one, is a non-empty normal component with no '/'. |
| Core.FileNameOfJoin | src/core.rs:126-129 | The file name of `dir/base` is `base`; a bare name is its own file name. |
| Core.GetProcessInfo | src/core.rs:99-144 | With no process: no user and "?". Otherwise the owner's name, and as command the file name of argv[0], the stat name when the command line is empty, or "?" when a step fails. The command is empty only if the stat name is. |
| Core.Firsts | src/core.rs:186-195 | The entries of a list, keeping only the first entry for each pid: what the seen-set loop lets through. Its properties are stated by `Core.FirstsSpec`. |
| Core.Attribute | src/core.rs:197-209 | The pushed entry for a driver process: its pid, the user and command looked up in the process table, its memory in whole MiB when the driver gives it, no host pid and no ngid mapping. |
| Core.MergedProcesses | src/core.rs:182-212 | The process list of a device: absent when both queries fail, else the first entry per pid of compute ++ graphics, each attributed. Its properties are stated by `Core.MergedProcessesNone` and `Core.MergedProcessesSpec`. |
| Core.FirstsSpec | src/core.rs:186-195 | The de-duplicated list has each pid of the input exactly once, in order of first appearance, with the entry that first carried it. |
| Core.MergedProcessesNone | src/core.rs:182-191 | The process list is absent exactly when both queries fail. When only graphics fails, it is the compute list de-duplicated. |
| Core.MergedProcessesSpec | src/core.rs:182-212 | A merged list has one entry per distinct pid of compute ++ graphics, and no other. Entries are in order of first appearance, each attributed from the entry that first carried its pid. |
| Core.MergeStep | src/core.rs:188-195 | One loop step adds its pid to the seen set. It appends an attributed entry exactly when the pid is new. |
| Core.MergeProcesses | src/core.rs:182-212 | The merge loop, with its seen-set, yields exactly the specified merged list. |
| Core.GpuInfo | src/core.rs:146-230 | A sample fails with the first failing required query: device lookup, then name, uuid, memory. Otherwise each optional metric is present exactly when its query succeeded, with watts and MiB rounded down and processes merged. |
| Core.SampleMemoryOrdered | src/core.rs:162-164 | When the driver reports used <= total, the sample does too. |
| Core.GetGpuInfo | src/core.rs:146-230 | The step-by-step sampler with early error returns yields exactly the specified sample. |
| Core.QueryIndices | src/core.rs:59-62 | The given ids are queried as given; with none, devices 0 to count-1 in order. |
| Core.SampleOrPlaceholder | src/core.rs:66-85 | A device that samples keeps its sample. One that fails becomes an unavailable entry named "((Error: ...))", with every metric absent, zero memory and no process list. |
| Core.NewQuery | src/core.rs:52-95 | Only a failing device count fails the query. Otherwise: one entry per requested index, in order; the host name or "unknown"; the driver version when it answers. |
| Display.ShortenLeftAsWritten | src/display.rs:13-24 | shorten_left as written, with `None` where a byte slice falls inside a char and Rust panics. Where it panics and what it returns otherwise are stated by `Display.ShortenLeftPanicsOnNarrowColumn`, `Display.ShortenLeftPanicsInsideChar`, `Display.ShortenLeftWrittenAtBoundary`, `Display.ShortenLeftAsciiSafe`, `Display.ShortenLeftWrittenExact` and `Display.ShortenLeftAgrees`. |
| Display.ShortenLeft | src/display.rs:13-24 | shorten_left with both cuts rounded to char boundaries, as the renderer uses it. Its properties are stated by `Display.ShortenLeftFits`, `Display.ShortenLeftKeepsTail` and `Display.ShortenLeftAgrees`. |
| Display.ShortenLeftPanicsInsideChar | src/display.rs:23 | Past the ellipsis, the tail cut panics whenever the name's last char is wider than the bytes left for the tail. |
| Display.ShortenLeftPanicsOnTradeMark | src/display.rs:23 | "GeForce™" in a five-byte column panics: two bytes are left for the tail, inside the three-byte "™". |
| Display.ShortenLeftPanicsOnNarrowColumn | src/display.rs:20-21 | With the three-byte ellipsis, a width of 1 or 2 panics on every longer name. |
| Display.ShortenLeftWrittenAtBoundary | src/display.rs:20-23 | When the bytes left for the tail start at a char boundary of the text, the code as written does not panic and gives the placeholder followed by the chars after that boundary, for any text. |
| Display.ShortenLeftTeslaAtBoundary | src/display.rs:23 | "Tesla™ X" in an eight-byte column gives "…™ X": the five-byte tail starts at a boundary. |
| Display.ShortenLeftWrittenExact | src/display.rs:13-24 | Whenever the code as written does not panic on a text longer than the width, the result is exactly `width` bytes, for any text and placeholder. |
| Display.ShortenLeftAsciiSafe | src/display.rs:13-24 | On ASCII text, the code as written never panics when the width is at least the placeholder's byte length. |
| Display.ShortenLeftFits | src/display.rs:13-24 | The result fits the width in bytes and in chars. Text that fits is kept whole; width 0 gives "". |
| Display.ShortenLeftKeepsTail | src/display.rs:20-23 | A text too long for a width wider than the placeholder becomes the placeholder followed by a tail of the text. |
| Display.ShortenLeftAscii | src/display.rs:23 | On ASCII text, that tail is exactly the last `width - len(placeholder)` chars, and the result fills the width. |
| Display.ShortenLeftAgrees | src/display.rs:13-24 | Wherever the code as written does not panic, the corrected version gives the same string. |
| Display.OptRepr | src/display.rs:43-48 | An absent value shows the placeholder; a present one shows digits that read back as the value, with no leading zero, as `to_string` prints. |
| Display.Rjust | src/display.rs:50-53 | The result is at least `w` long, ends with the value, and is padded with spaces on the left only. |
| Display.Metric3Shape | src/display.rs:87 | A three-wide metric is exactly 3 chars: " ??" when absent, else a value below 1000 padded on the left. |
| Display.MetricsAligned | src/display.rs:86-181 | On any device whose values fit their columns, the metric columns have a width that depends only on the options, so lines align. |
| Display.LeadingFieldsWidth | src/display.rs:86-124 | The temperature field is 7 chars, the fan field 7 (or 0 when off) and the utilization field 5. |
| Display.CodecFieldWidth | src/display.rs:126-145 | The codec field is 21 chars when shown, else empty. |
| Display.PowerFieldWidth | src/display.rs:147-167 | The power field is 7 chars, plus 7 with the limit, when shown; else empty. |
| Display.MemoryFieldWidth | src/display.rs:169-181 | The memory field is 19 chars for values below 100000 MB. |
| Display.NameColumnWidth | src/display.rs:70-84 | A name column is always its width plus the three-char separator. A name that fits is shown whole, right-aligned. |
| Display.ProcessEntry | src/display.rs:201-249 | One process entry: a space, the user (and ':' when the command follows), the command, the pid part and "(<memory>M)". Its shape is stated by `Display.ProcessEntryShape`. |
| Display.Line | src/display.rs:56-198 | One device line: the device columns followed by the process segment. Its ending is stated by `Display.LineEnding`. |
| Display.FormatProcess | src/display.rs:201-249 | The appended pieces make up exactly the process entry: user, ':', command, pid, memory. |
| Display.FormatLine | src/display.rs:56-198 | The field-by-field builder yields exactly the device line. |
| Display.AppendProcessSegment | src/display.rs:183-195 | The process tail is the bar separator and then each process in order, or the unsupported marker, or nothing when processes are hidden. |
| Display.ProcessSegmentShape | src/display.rs:183-195 | The segment is empty when hidden, the bar and "(Not Supported)" for no list, the bare bar for an empty list, and otherwise ends with a memory "M)". |
| Display.LineEnding | src/display.rs:169-195 | Each line ends at " MB", at " MB" with the bar and "(Not Supported)", at " MB" with a bare bar, or at the last process's "M)", by the same four cases. |
| Display.ProcessEntryShape | src/display.rs:201-247 | Each process entry starts with a space and ends with "(<memory or ?>M)". |
| Display.ColonIffUserAndCommand | src/display.rs:207-231 | When neither the username (or "--") nor the command contains ':', the ':' appears exactly when both the user and the command are asked for. A command such as "app:v2" shows a ':' on its own. |
| Display.ArrowIffRealPid | src/display.rs:232-238 | When neither the username (or "--") nor the command contains '>', a '>' (that of "->") appears exactly when the pid is shown and a host pid is known. A command such as "a->b" shows "->" on its own. |
| Display.ScenarioUserAndCommand | src/display.rs:201-249 | User and command give " alice:train.py(2048M)". |
| Display.ScenarioNeither | src/display.rs:207-220 | With neither user nor command asked for, the username is still shown: " alice(2048M)". |
| Display.ScenarioCommandOnly | src/display.rs:207-231 | With only the command asked for, the username is dropped: " train.py(2048M)". |
| Display.PidScenario | src/display.rs:232-237 | A mapped pid prints as "/500->12345". |
| Display.UseColor | src/display.rs:257-263 | --no-color wins; otherwise --force-color turns colour on; otherwise colour follows whether stdout is a terminal. |
| Display.MaxNameLen | src/display.rs:265-271 | The longest name in bytes bounds every name and is attained by one; with no devices it is 0. |
| Display.ResolvedWidth | src/display.rs:265-272 | An explicit width is used as given. Otherwise the width is at least 16, fits every name, and is either 16 or some name's length. |
| Display.AutoWidthShowsWholeNames | src/display.rs:265-275 | With the width sized automatically, no name is truncated and every name column has the same width. |
| Display.LinesAt | src/display.rs:294-296 | The k-th body line is device k's line. |
| Display.Printout | src/display.rs:253-307 | The plain-text output: the header lines, one line per device, and the no-GPU message when there are none. Its shape is stated by `Display.PrintoutShape`. |
| Display.PrintoutShape | src/display.rs:277-304 | The printout has the header (unless suppressed), one line per device in order with the resolved width, and the no-GPU message exactly when there are no devices. |
| Display.AppendLines | src/display.rs:293-296 | The device loop appends each device's line, in order. |
| Display.PrintFormatted | src/display.rs:253-307 | The plain-text printer yields exactly the specified printout. |
| Cli.ParseU32 | src/main.rs:107 | Empty text and a bare '+' are rejected. Anything accepted is digits after an optional leading '+'. |
| Cli.ParseU32Value | src/main.rs:107 | Accepted text is, after the optional '+', the value as printed preceded by some zeros ("007" gives 7, "+0" gives 0). |
| Cli.ParseU32Decimal | src/main.rs:107 | Every u32 as printed parses back, with or without '+' and with any number of leading zeros. |
| Cli.ParseU32RejectsMinus | src/main.rs:107 | A leading '-' is rejected. |
| Cli.ParseU32RejectsOverflow | src/main.rs:107 | A number of 2^32 or more is rejected, with or without '+' and with any number of leading zeros. |
| Cli.TokenId | src/main.rs:107 | A token yields at most one id. |
| Cli.ParseTokens | src/main.rs:106-108 | The filter-map over tokens: each token's trimmed value when it parses as a u32, in order. The result is no longer than the token list. |
| Cli.ParseIds | src/main.rs:105-109 | The `--id` value split at ',' and filter-mapped. Its properties are stated by `Cli.ParseIdsToken`, `Cli.ParseIdsConcat` and `Cli.ParseIdsRoundTrip`. |
| Cli.ParseIdsToken | src/main.rs:105-109 | A comma-free token yields its trimmed value when that parses, and nothing otherwise: bad tokens are dropped. |
| Cli.ParseIdsConcat | src/main.rs:105-109 | Ids on either side of a comma are kept in order, duplicates included. |
| Cli.ParseTokensConcat | src/main.rs:106-108 | The filter-map over tokens distributes over concatenation. |
| Cli.ParseIdsRoundTrip | src/main.rs:105-109 | Any list of ids, written comma-separated, parses back to itself, order and duplicates included. |
| Cli.GpuIds | src/main.rs:105-109 | An absent `--id` means all devices (None); a present one is its parsed list. |
| Cli.PowerValueWantsLimit | src/main.rs:119-121 | A bare --show-power wants the limit; a value wants it exactly when it contains "limit". |
| Cli.BuildDisplayOptions | src/main.rs:112-136 | The options satisfy `Cli.OptionsFrom`: each display flag is on when given or with --show-all. --show-codec and --show-power count whatever their value. The power limit follows the --show-power value, else --show-all. The limit implies power. The other options are copied. |
| Cli.Conflict | src/main.rs:94-102 | --force-color with --no-color is reported first, then --json with --interval. No conflict exactly when neither pair is given. |
| Cli.Start | src/main.rs:86-109 | --version wins. A conflict exits with code 1 and its message. Otherwise the run uses the parsed ids and the --json flag, its options satisfy `Cli.OptionsFrom` field by field, and it never has both colour flags. |

## Left out

- NVML itself, `/proc` and the user database are inputs: the driver handle and the process table hold their answers.
- The host name lookup and the clock are parameters. The `%Y-%m-%d %H:%M:%S` formatting of the query time is not modelled; the time arrives formatted.
- Coloured output (src/display.rs, all `use_color` branches) is not modelled. Only the choice of colour is (`Display.UseColor`).
- The watch loop, its interval arithmetic on `f64`, the screen clearing (src/main.rs:138-165) and the JSON output (src/main.rs:179-180) are not modelled.
- `run_gpustat` (src/main.rs:168-186) is not modelled beyond what `Cli.Start` hands to it: creating the driver handle and printing are I/O.
- clap's parsing of the command line is not modelled; `Cli.Args` is its result. `--show-full-cmd` is parsed but unused by the code.
- Core.GetProcessInfo: `Process::new(pid as i32)` turns a pid above 2^31-1 into a negative one that has no process. The model keys the table by the u32 pid.
- Core.FileName: models `Path::file_name` on '/'-separated text. Non-UTF-8 names, which `to_str` turns into "?", cannot occur because strings are Unicode here.
- The `HashSet` of seen pids in the merge loop becomes a `set<U32>`; only its membership test matters, so hashing and capacity are not modelled.
- Cli.TokenId: its contract bounds only the number of ids per token. Which token yields which id is stated by `Cli.ParseIdsToken` and `Cli.ParseIdsConcat`.
- Text.ByteSuffixOneByteChars: states only that the slice does not panic. Its value is given by `Text.ByteSuffixIsCeil` and `Text.CeilSuffixOneByteChars`.

## Findings

| source | as written | input that shows it | evidently intended | confidence | as-written member | corrected member |
|---|---|---|---|---|---|---|
| src/display.rs:20-21 | `placeholder[..width]` cuts the three-byte "…" at byte 1 or 2. That is not a char boundary, so Rust panics. | `--gpuname-width 1` (or 2) with any GPU name longer than the width in bytes | the longest prefix of the placeholder that fits the width (here ""), so narrow columns render | high; not executed | Display.ShortenLeftPanicsOnNarrowColumn | Display.ShortenLeftFits |
| src/display.rs:23 | `&text[text.len() - (width - placeholder.len())..]` cuts the name at a byte offset. When that offset falls inside a multi-byte char, Rust panics. | `--gpuname-width 5` with a GPU name ending in "™", such as "GeForce™" (10 bytes; the tail gets 2 bytes, inside the 3-byte "™") | the longest tail of the name that fits the bytes left, so the column renders | high; not executed | Display.ShortenLeftPanicsOnTradeMark | Display.ShortenLeftFits |

`Display.ShortenLeftAsWritten` models the code as written, with `None` where it panics. `Display.ShortenLeft` rounds both cuts to char boundaries and is what the renderer uses. `Display.ShortenLeftAgrees` proves the corrected version returns the same string wherever the original does not panic.

=== FILE: cli.dfy ===
/** The start of src/main.rs: the order in which the command line is
    checked, the `--id` list, and the display options derived from the
    flags. */
module Cli {
  import opened Text
  import opened Display

  /** The parsed command line. Interval seconds are an `f64` in the program
      and only whether the flag is present matters here. */
  datatype Args = Args(
    id: Option<string>,
    json: bool,
    showAll: bool,
    showCmd: bool,
    showFullCmd: bool,
    showUser: bool,
    showPid: bool,
    showFanSpeed: bool,
    showCodec: Option<Option<string>>,
    showPower: Option<Option<string>>,
    noHeader: bool,
    gpunameWidth: Option<nat>,
    noProcesses: bool,
    forceColor: bool,
    noColor: bool,
    watch: Option<Option<real>>,
    version: bool)

  const VERSION_LINE := "gpustat-rs 0.1.0"
  const FORCE_AND_NO_COLOR := "Error: --force-color and --no-color cannot be used together"
  const JSON_AND_INTERVAL := "Error: --json and --interval cannot be used together"

  // ---------------------------------------------------------------------------
  // --id: split on ',', trim, keep the tokens that parse as u32.
  // ---------------------------------------------------------------------------

  /** The digits of an unsigned number: one leading '+' is allowed. */
  function UnsignedDigits(s: string): string {
    if s != [] && s[0] == '+' then s[1..] else s
  }

  /** `str::parse::<u32>`: an optional '+', then at least one ASCII digit,
      with a value below 2^32; anything else is an error. Leading zeros are
      allowed and do not count. */
  function ParseU32(s: string): (r: Option<U32>)
    ensures s == [] || s == "+" ==> r.None?
    ensures r.Some? ==> forall i :: 0 <= i < |s| ==> IsDigit(s[i]) || (i == 0 && s[i] == '+')
  {
    var digits := UnsignedDigits(s);
    if digits == [] || !AllDigits(digits) then None
    else
      var v := DecimalValue(digits);
      if v < 0x1_0000_0000 then Some(v) else None
  }

  /** The value of accepted text: its digits are that value as Rust prints
      it, after some leading zeros. */
  lemma ParseU32Value(s: string)
    requires ParseU32(s).Some?
    ensures exists k: nat :: UnsignedDigits(s) == Zeros(k) + NatToString(ParseU32(s).value)
  {
    PaddedDecimal(UnsignedDigits(s));
  }

  /** Every number Rust prints reads back, with or without a '+' and with
      any number of leading zeros. */
  lemma ParseU32Decimal(n: U32, k: nat)
    ensures ParseU32(Zeros(k) + NatToString(n)) == Some(n)
    ensures ParseU32("+" + Zeros(k) + NatToString(n)) == Some(n)
  {
    var digits := Zeros(k) + NatToString(n);
    DecimalRoundTrip(n);
    DecimalLeadingZeros(k, NatToString(n));
    assert digits[0] != '+';
    assert ("+" + digits)[1..] == digits;
    assert "+" + Zeros(k) + NatToString(n) == "+" + digits;
  }

  /** A sign other than '+' is an error for an unsigned type. */
  lemma ParseU32RejectsMinus(s: string)
    ensures ParseU32("-" + s) == None
  {
    assert !IsDigit(("-" + s)[0]);
  }

  /** A number of 2^32 or more overflows, however many zeros lead it and
      whether or not a '+' does. */
  lemma ParseU32RejectsOverflow(n: nat, k: nat)
    requires n >= 0x1_0000_0000
    ensures ParseU32(Zeros(k) + NatToString(n)) == None
    ensures ParseU32("+" + Zeros(k) + NatToString(n)) == None
  {
    var digits := Zeros(k) + NatToString(n);
    DecimalRoundTrip(n);
    DecimalLeadingZeros(k, NatToString(n));
    assert digits[0] != '+';
    assert ("+" + digits)[1..] == digits;
    assert "+" + Zeros(k) + NatToString(n) == "+" + digits;
  }

  /** One token's contribution: its value if it parses once trimmed. */
  function TokenId(token: string): (r: seq<U32>)
    ensures |r| <= 1
  {
    match ParseU32(Trim(token))
    case Some(v) => [v]
    case None => []
  }

  /** The filter_map over the tokens: parse each trimmed token and keep the
      successes, in order. */
  function ParseTokens(tokens: seq<string>): (r: seq<U32>)
    ensures |r| <= |tokens|
  {
    if tokens == [] then [] else TokenId(tokens[0]) + ParseTokens(tokens[1..])
  }

  /** The `--id` value as a list of device indices. */
  function ParseIds(s: string): seq<U32> {
    ParseTokens(Split(s, ','))
  }

  /** The ids selected on the command line; `None` selects every device. */
  function GpuIds(args: Args): (r: Option<seq<U32>>)
    ensures r.None? <==> args.id.None?
    ensures args.id.Some? ==> r == Some(ParseIds(args.id.value))
  {
    match args.id
    case None => None
    case Some(s) => Some(ParseIds(s))
  }

  lemma {:induction false} ParseTokensConcat(a: seq<string>, b: seq<string>)
    ensures ParseTokens(a + b) == ParseTokens(a) + ParseTokens(b)
  {
    if a != [] {
      DropFirstOfConcat(a, b);
      ParseTokensConcat(a[1..], b);
      Assoc(TokenId(a[0]), ParseTokens(a[1..]), ParseTokens(b));
    } else {
      assert a + b == b;
    }
  }

  /** A token without a comma yields its value when it parses once trimmed,
      and nothing otherwise. */
  lemma ParseIdsToken(t: string)
    requires ',' !in t
    ensures ParseIds(t) == match ParseU32(Trim(t)) case Some(v) => [v] case None => []
  {
    SplitNoSeparator(t, ',');
  }

  /** Ids on either side of a comma are kept in order, duplicates and all. */
  lemma ParseIdsConcat(a: string, b: string)
    ensures ParseIds(a + [','] + b) == ParseIds(a) + ParseIds(b)
  {
    SplitConcat(a, b, ',');
    ParseTokensConcat(Split(a, ','), Split(b, ','));
  }

  function Decimals(ids: seq<U32>): seq<string> {
    Map(ids, (n: U32) => NatToString(n))
  }

  lemma {:induction false} ParseTokensDecimals(ids: seq<U32>)
    ensures ParseTokens(Decimals(ids)) == ids
  {
    if ids != [] {
      MapDropFirst(ids, (n: U32) => NatToString(n));
      ParseTokensDecimals(ids[1..]);
      TokenIdDecimal(ids[0]);
      assert [ids[0]] + ids[1..] == ids;
    }
  }

  /** A number written out is a token that yields that number. */
  lemma TokenIdDecimal(n: U32)
    ensures TokenId(NatToString(n)) == [n]
  {
    var s := NatToString(n);
    assert Zeros(0) + s == s;
    ParseU32Decimal(n, 0);
    DigitsTrimmed(s);
    assert ParseU32(Trim(s)) == Some(n);
  }

  /** Digits are not whitespace, so trimming leaves a number alone. */
  lemma DigitsTrimmed(s: string)
    requires |s| >= 1 && AllDigits(s)
    ensures Trim(s) == s
  {
    assert IsDigit(s[0]) && IsDigit(s[|s| - 1]);
    TrimUnchanged(s);
  }

  /** Any list of ids, written as `--id` expects, parses back to itself:
      order and duplicates are kept. */
  lemma ParseIdsRoundTrip(ids: seq<U32>)
    ensures ParseIds(Join(Decimals(ids), ',')) == ids
  {
    var ds := Decimals(ids);
    if ids == [] {
      assert Join(ds, ',') == [];
    } else {
      forall k | 0 <= k < |ds| ensures ',' !in ds[k] {
        assert !IsDigit(',');
      }
      SplitJoin(ds, ',');
      ParseTokensDecimals(ids);
    }
  }

  // ---------------------------------------------------------------------------
  // Display options.
  // ---------------------------------------------------------------------------

  /** Whether a `--show-power` value asks for the limit: a bare flag does. */
  function PowerValueWantsLimit(value: Option<string>): (r: bool)
    ensures value.None? ==> r
    ensures value.Some? ==> (r <==> Contains(value.value, "limit"))
  {
    match value
    case Some(s) => Contains(s, "limit")
    case None => true
  }

  /** A display flag is on when given, or when everything is asked for. */
  function FlagOrAll(flag: bool, showAll: bool): bool {
    flag || showAll
  }

  /** The options built from the flags: each display flag or `--show-all`;
      `--show-codec` and `--show-power` count whatever their value; the
      power limit as asked by the `--show-power` value, else `--show-all`;
      the other options copied. */
  predicate OptionsFrom(args: Args, opts: DisplayOptions) {
    && opts.showCmd == (args.showCmd || args.showAll)
    && opts.showUser == (args.showUser || args.showAll)
    && opts.showPid == (args.showPid || args.showAll)
    && opts.showFanSpeed == (args.showFanSpeed || args.showAll)
    && opts.showCodec == (args.showCodec.Some? || args.showAll)
    && opts.showPower == (args.showPower.Some? || args.showAll)
    && (args.showPower.Some? ==> opts.showPowerLimit == PowerValueWantsLimit(args.showPower.value))
    && (args.showPower.None? ==> opts.showPowerLimit == args.showAll)
    && opts.noProcesses == args.noProcesses && opts.noHeader == args.noHeader
    && opts.gpunameWidth == args.gpunameWidth
    && opts.forceColor == args.forceColor && opts.noColor == args.noColor
  }

  /** The initializer of main followed by its `--show-power` override. */
  method BuildDisplayOptions(args: Args) returns (opts: DisplayOptions)
    ensures OptionsFrom(args, opts)
    ensures opts.showPowerLimit ==> opts.showPower
    ensures args.showAll ==> opts.showCmd && opts.showUser && opts.showPid
                             && opts.showFanSpeed && opts.showCodec && opts.showPower
  {
    var showPower := FlagOrAll(args.showPower.Some?, args.showAll);
    var showPowerLimit := if args.showPower.Some? then PowerValueWantsLimit(args.showPower.value) else args.showAll;
    if args.showPower.Some? {
      showPower := true;
      showPowerLimit := PowerValueWantsLimit(args.showPower.value);
    }
    opts := DisplayOptions(
      showCmd := FlagOrAll(args.showCmd, args.showAll),
      showUser := FlagOrAll(args.showUser, args.showAll),
      showPid := FlagOrAll(args.showPid, args.showAll),
      showFanSpeed := FlagOrAll(args.showFanSpeed, args.showAll),
      showCodec := FlagOrAll(args.showCodec.Some?, args.showAll),
      showPower := showPower,
      showPowerLimit := showPowerLimit,
      noProcesses := args.noProcesses,
      noHeader := args.noHeader,
      gpunameWidth := args.gpunameWidth,
      forceColor := args.forceColor,
      noColor := args.noColor);
  }

  // ---------------------------------------------------------------------------
  // What main does before the first query.
  // ---------------------------------------------------------------------------

  /** The first conflicting pair of flags, checked in this order. */
  function Conflict(args: Args): (r: Option<string>)
    ensures args.forceColor && args.noColor ==> r == Some(FORCE_AND_NO_COLOR)
    ensures !(args.forceColor && args.noColor) && args.json && args.watch.Some? ==> r == Some(JSON_AND_INTERVAL)
    ensures r.None? <==> !(args.forceColor && args.noColor) && !(args.json && args.watch.Some?)
  {
    if args.forceColor && args.noColor then Some(FORCE_AND_NO_COLOR)
    else if args.json && args.watch.Some? then Some(JSON_AND_INTERVAL)
    else None
  }

  datatype Startup =
    | PrintVersion(line: string)
    | Exit(code: int, message: string)
    | Run(gpuIds: Option<seq<U32>>, opts: DisplayOptions, json: bool)

  /** main up to the query loop: `--version` wins over everything, then the
      conflicts stop with exit code 1, otherwise the ids and options are
      derived and the query runs. */
  method Start(args: Args) returns (r: Startup)
    ensures args.version ==> r == PrintVersion(VERSION_LINE)
    ensures !args.version && Conflict(args).Some? ==> r == Exit(1, Conflict(args).value)
    ensures !args.version && Conflict(args).None? ==> r.Run?
    ensures r.Run? ==>
      && r.gpuIds == GpuIds(args) && r.json == args.json
      && OptionsFrom(args, r.opts)
      && !(r.opts.forceColor && r.opts.noColor)
  {
    if args.version {
      return PrintVersion(VERSION_LINE);
    }
    if args.forceColor && args.noColor {
      return Exit(1, FORCE_AND_NO_COLOR);
    }
    if args.json && args.watch.Some? {
      return Exit(1, JSON_AND_INTERVAL);
    }
    var gpuIds := GpuIds(args);
    var opts := BuildDisplayOptions(args);
    r := Run(gpuIds, opts, args.json);
  }
}

=== FILE: core.dfy ===
/** The device sampler of src/core.rs: one `GpuStat` per requested device,
    built from the driver's per-query answers, with the compute and graphics
    process lists merged and attributed to users and commands through the
    host's process table. The driver and the process table are inputs. */
module Core {
  import opened Text

  /** Bytes per megabyte, as the sampler divides by it. */
  const MB: nat := 1024 * 1024

  /** Milliwatts per watt. */
  const MW_PER_W: nat := 1000

  // ---------------------------------------------------------------------------
  // What the driver answers. Each query of a device may fail on its own.
  // ---------------------------------------------------------------------------

  /** A driver error; `message` is the text its Display implementation writes. */
  datatype NvmlError = NvmlError(message: string)

  /** Memory of a device, in bytes. */
  datatype MemoryInfo = MemoryInfo(used: U64, total: U64)

  /** Per-process memory as the driver reports it: a byte count or a marker. */
  datatype UsedGpuMemory = Used(bytes: U64) | Unavailable

  datatype NvProcess = NvProcess(pid: U32, usedGpuMemory: UsedGpuMemory)

  /** The answers of one device handle, query by query. */
  datatype Device = Device(
    name: Result<string, NvmlError>,
    uuid: Result<string, NvmlError>,
    temperature: Result<U32, NvmlError>,
    fanSpeed: Result<U32, NvmlError>,               // fan 0
    memoryInfo: Result<MemoryInfo, NvmlError>,
    utilization: Result<U32, NvmlError>,            // the `gpu` rate
    encoderUtilization: Result<U32, NvmlError>,
    decoderUtilization: Result<U32, NvmlError>,
    powerUsage: Result<U32, NvmlError>,             // milliwatts
    enforcedPowerLimit: Result<U32, NvmlError>,     // milliwatts
    computeProcesses: Result<seq<NvProcess>, NvmlError>,
    graphicsProcesses: Result<seq<NvProcess>, NvmlError>)

  /** The driver handle: its device count, its driver version and the device
      handle (or the error) that each index yields. */
  datatype Nvml = Nvml(
    deviceCount: Result<U32, NvmlError>,
    driverVersion: Result<string, NvmlError>,
    deviceByIndex: U32 -> Result<Device, NvmlError>)

  // ---------------------------------------------------------------------------
  // The host's process table, reduced to what the sampler reads of a process.
  // ---------------------------------------------------------------------------

  /** One process: the name of its owner (absent when the uid or the user
      lookup fails), its command line (absent when unreadable) and the short
      name from its stat record (absent when unreadable). */
  datatype ProcEntry = ProcEntry(
    username: Option<string>,
    cmdline: Option<seq<string>>,
    comm: Option<string>)

  /** Host pid to process; a pid that is not a key has no process. */
  type ProcessTable = map<U32, ProcEntry>

  // ---------------------------------------------------------------------------
  // What the sampler produces.
  // ---------------------------------------------------------------------------

  /** One process using a device. `realPid` and `usernameFromNgidMapping`
      belong to the namespace-mapping fallback, which get_gpu_info never
      takes: it leaves them `None` and `false`. */
  datatype GpuProcessInfo = GpuProcessInfo(
    pid: U32,
    username: Option<string>,
    command: string,
    gpuMemoryUsage: Option<U64>,                    // megabytes
    realPid: Option<U32>,
    usernameFromNgidMapping: bool)

  /** One device sample. `processes` is three-state: `None` when the driver
      cannot list processes, `Some([])` when it lists none. */
  datatype GpuStat = GpuStat(
    index: U32,
    name: string,
    uuid: string,
    temperature: Option<U32>,
    fanSpeed: Option<U32>,
    utilization: Option<U32>,
    utilizationEnc: Option<U32>,
    utilizationDec: Option<U32>,
    powerDraw: Option<U32>,                         // watts
    powerLimit: Option<U32>,                        // watts
    memoryUsed: U64,                                // megabytes
    memoryTotal: U64,                               // megabytes
    processes: Option<seq<GpuProcessInfo>>,
    available: bool)

  /** The whole snapshot. `queryTime` is the already formatted timestamp. */
  datatype GpuStatCollection = GpuStatCollection(
    hostname: string,
    queryTime: string,
    driverVersion: Option<string>,
    gpus: seq<GpuStat>)

  // ---------------------------------------------------------------------------
  // Unit conversions: integer division, rounding down.
  // ---------------------------------------------------------------------------

  /** `q` is `x` counted in whole `unit`s, rounded down. */
  predicate WholeUnits(q: nat, x: nat, unit: nat) {
    q * unit <= x < (q + 1) * unit
  }

  function BytesToMb(bytes: U64): (mb: U64)
    ensures WholeUnits(mb, bytes, MB)
  {
    bytes / MB
  }

  function MilliwattsToWatts(mw: U32): (w: U32)
    ensures WholeUnits(w, mw, MW_PER_W)
  {
    mw / MW_PER_W
  }

  /** Per-process memory: a byte count becomes whole megabytes, the
      "unavailable" marker becomes absent. */
  function ProcessMemoryMb(m: UsedGpuMemory): (r: Option<U64>)
    ensures r.Some? <==> m.Used?
    ensures r.Some? ==> WholeUnits(r.value, m.bytes, MB)
  {
    match m
    case Used(bytes) => Some(BytesToMb(bytes))
    case Unavailable => None
  }

  /** Rounding down keeps the order of two byte counts. */
  lemma {:induction false} MegabytesMonotone(x: U64, y: U64)
    requires x <= y
    ensures BytesToMb(x) <= BytesToMb(y)
  {
    // Follows from the WholeUnits bounds in the contract of BytesToMb.
  }

  // ---------------------------------------------------------------------------
  // Process attribution (get_process_info).
  // ---------------------------------------------------------------------------

  /** The last normal component of a '/'-separated path, skipping empty and
      "." components; none when there is none or the path ends in "..". */
  function FileName(path: string): (r: Option<string>)
    ensures r.Some? ==> r.value != [] && '/' !in r.value && r.value != "." && r.value != ".."
  {
    LastNormal(Split(path, '/'))
  }

  function LastNormal(parts: seq<string>): (r: Option<string>)
    ensures r.Some? ==> r.value in parts && r.value != [] && r.value != "." && r.value != ".."
  {
    if parts == [] then None
    else
      var last := parts[|parts| - 1];
      if last == [] || last == "." then LastNormal(parts[..|parts| - 1])
      else if last == ".." then None
      else Some(last)
  }

  /** The file name of `dir/base` is `base`, for any directory and any
      normal component `base`; a bare name is its own file name. */
  lemma FileNameOfJoin(dir: string, base: string)
    requires base != [] && '/' !in base && base != "." && base != ".."
    ensures FileName(dir + "/" + base) == Some(base)
    ensures FileName(base) == Some(base)
  {
    SplitConcat(dir, base, '/');
    SplitNoSeparator(base, '/');
  }

  /** Username and command of the process `pid`. A pid with no process is
      unresolved; otherwise the command is the file name of the first
      command-line word, or the stat name when the command line is empty,
      with "?" wherever a step yields nothing. */
  function GetProcessInfo(table: ProcessTable, pid: U32): (r: (Option<string>, string))
    ensures pid !in table ==> r == (None, "?")
    ensures pid in table ==> r.0 == table[pid].username
    ensures pid in table && table[pid].cmdline.None? ==> r.1 == "?"
    ensures pid in table && table[pid].cmdline == Some([]) ==> r.1 == table[pid].comm.GetOr("?")
    ensures pid in table && table[pid].cmdline.Some? && table[pid].cmdline.value != [] ==>
              r.1 == FileName(table[pid].cmdline.value[0]).GetOr("?")
    ensures r.1 == [] ==> pid in table && table[pid].cmdline == Some([]) && table[pid].comm == Some([])
  {
    if pid !in table then (None, "?")
    else
      var p := table[pid];
      var command :=
        match p.cmdline
        case None => "?"
        case Some(cmdline) =>
          if cmdline == [] then p.comm.GetOr("?")
          else FileName(cmdline[0]).GetOr("?");
      (p.username, command)
  }

  // ---------------------------------------------------------------------------
  // Merging the compute and graphics lists: first occurrence of a pid wins.
  // ---------------------------------------------------------------------------

  function Pids(xs: seq<NvProcess>): set<U32> {
    set i | 0 <= i < |xs| :: xs[i].pid
  }

  /** The position of the first entry with `pid`. */
  function FirstIndex(xs: seq<NvProcess>, pid: U32): (i: nat)
    requires pid in Pids(xs)
    ensures i < |xs| && xs[i].pid == pid
    ensures forall j :: 0 <= j < i ==> xs[j].pid != pid
  {
    if xs[0].pid == pid then 0
    else
      assert pid in Pids(xs[1..]) by {
        var i :| 0 <= i < |xs| && xs[i].pid == pid;
        assert xs[1..][i - 1] == xs[i];
      }
      1 + FirstIndex(xs[1..], pid)
  }

  /** The entries of `xs` that are the first with their pid, in order. */
  function Firsts(xs: seq<NvProcess>): seq<NvProcess>
  {
    if xs == [] then []
    else
      var init := xs[..|xs| - 1];
      if xs[|xs| - 1].pid in Pids(init) then Firsts(init)
      else Firsts(init) + [xs[|xs| - 1]]
  }

  lemma PidsSnoc(xs: seq<NvProcess>, x: NvProcess)
    ensures Pids(xs + [x]) == Pids(xs) + {x.pid}
  {
    var ys := xs + [x];
    forall p | p in Pids(ys) ensures p in Pids(xs) + {x.pid} {
      var i :| 0 <= i < |ys| && ys[i].pid == p;
      if i < |xs| { assert xs[i] == ys[i]; }
    }
    forall p | p in Pids(xs) ensures p in Pids(ys) {
      var i :| 0 <= i < |xs| && xs[i].pid == p;
      assert ys[i] == xs[i];
    }
    assert ys[|xs|] == x;
  }

  lemma PidsConcat(xs: seq<NvProcess>, ys: seq<NvProcess>)
    ensures Pids(xs + ys) == Pids(xs) + Pids(ys)
  {
    var zs := xs + ys;
    forall p | p in Pids(zs) ensures p in Pids(xs) + Pids(ys) {
      var i :| 0 <= i < |zs| && zs[i].pid == p;
      if i < |xs| { assert xs[i] == zs[i]; } else { assert ys[i - |xs|] == zs[i]; }
    }
    forall p | p in Pids(xs) + Pids(ys) ensures p in Pids(zs) {
      if p in Pids(xs) {
        var i :| 0 <= i < |xs| && xs[i].pid == p;
        assert zs[i] == xs[i];
      } else {
        var i :| 0 <= i < |ys| && ys[i].pid == p;
        assert zs[|xs| + i] == ys[i];
      }
    }
  }

  /** Appending an entry does not move the first position of a pid already seen. */
  lemma FirstIndexSnoc(xs: seq<NvProcess>, x: NvProcess, pid: U32)
    requires pid in Pids(xs)
    ensures pid in Pids(xs + [x]) && FirstIndex(xs + [x], pid) == FirstIndex(xs, pid)
  {
    PidsSnoc(xs, x);
    var a, b := FirstIndex(xs + [x], pid), FirstIndex(xs, pid);
    assert (xs + [x])[b] == xs[b];
  }

  /** A pid not seen before is first seen at the appended entry. */
  lemma FirstIndexNew(xs: seq<NvProcess>, x: NvProcess)
    requires x.pid !in Pids(xs)
    ensures x.pid in Pids(xs + [x]) && FirstIndex(xs + [x], x.pid) == |xs|
  {
    PidsSnoc(xs, x);
    assert (xs + [x])[|xs|] == x;
  }

  lemma {:induction false} FirstsPids(xs: seq<NvProcess>)
    ensures |Firsts(xs)| <= |xs|
    ensures Pids(Firsts(xs)) == Pids(xs)
  {
    if xs != [] {
      var init, x := xs[..|xs| - 1], xs[|xs| - 1];
      assert xs == init + [x];
      FirstsPids(init);
      PidsSnoc(init, x);
      if x.pid !in Pids(init) {
        PidsSnoc(Firsts(init), x);
      }
    }
  }

  lemma {:induction false} FirstsAreFirst(xs: seq<NvProcess>)
    ensures forall k :: 0 <= k < |Firsts(xs)| ==>
              Firsts(xs)[k].pid in Pids(xs) && Firsts(xs)[k] == xs[FirstIndex(xs, Firsts(xs)[k].pid)]
  {
    if xs != [] {
      var init, x := xs[..|xs| - 1], xs[|xs| - 1];
      assert xs == init + [x];
      FirstsAreFirst(init);
      var f := Firsts(init);
      forall k | 0 <= k < |f|
        ensures f[k].pid in Pids(xs) && f[k] == xs[FirstIndex(xs, f[k].pid)]
      {
        FirstIndexSnoc(init, x, f[k].pid);
        assert xs[FirstIndex(init, f[k].pid)] == init[FirstIndex(init, f[k].pid)];
      }
      if x.pid !in Pids(init) {
        FirstIndexNew(init, x);
        assert Firsts(xs) == f + [x];
      }
    }
  }

  lemma {:induction false} FirstsOrdered(xs: seq<NvProcess>)
    ensures forall k :: 0 <= k < |Firsts(xs)| ==> Firsts(xs)[k].pid in Pids(xs)
    ensures forall k1, k2 :: 0 <= k1 < k2 < |Firsts(xs)| ==>
              FirstIndex(xs, Firsts(xs)[k1].pid) < FirstIndex(xs, Firsts(xs)[k2].pid)
  {
    FirstsAreFirst(xs);
    if xs != [] {
      var init, x := xs[..|xs| - 1], xs[|xs| - 1];
      assert xs == init + [x];
      FirstsOrdered(init);
      FirstsPids(init);
      var f := Firsts(init);
      forall k | 0 <= k < |f| ensures FirstIndex(xs, f[k].pid) == FirstIndex(init, f[k].pid) < |init| {
        FirstIndexSnoc(init, x, f[k].pid);
      }
      if x.pid !in Pids(init) {
        FirstIndexNew(init, x);
        assert Firsts(xs) == f + [x];
      }
    }
  }

  /** The merge keeps each pid once, in order of first appearance, with the
      entry that first carried it: this determines the result completely. */
  lemma FirstsSpec(xs: seq<NvProcess>)
    ensures |Firsts(xs)| <= |xs|
    ensures Pids(Firsts(xs)) == Pids(xs)
    ensures forall k :: 0 <= k < |Firsts(xs)| ==>
              Firsts(xs)[k].pid in Pids(xs) && Firsts(xs)[k] == xs[FirstIndex(xs, Firsts(xs)[k].pid)]
    ensures forall k1, k2 :: 0 <= k1 < k2 < |Firsts(xs)| ==>
              FirstIndex(xs, Firsts(xs)[k1].pid) < FirstIndex(xs, Firsts(xs)[k2].pid)
  {
    FirstsPids(xs);
    FirstsAreFirst(xs);
    FirstsOrdered(xs);
  }

  /** `unwrap_or_default`: a failed list query contributes no entries. */
  function OrEmpty(r: Result<seq<NvProcess>, NvmlError>): seq<NvProcess> {
    match r
    case Ok(xs) => xs
    case Err(_) => []
  }

  /** One merged entry, attributed through the process table. */
  function Attribute(nv: NvProcess, table: ProcessTable): (p: GpuProcessInfo)
    ensures p.pid == nv.pid && p.gpuMemoryUsage == ProcessMemoryMb(nv.usedGpuMemory)
    ensures (p.username, p.command) == GetProcessInfo(table, nv.pid)
    ensures p.realPid.None? && !p.usernameFromNgidMapping
  {
    var (username, command) := GetProcessInfo(table, nv.pid);
    GpuProcessInfo(nv.pid, username, command, ProcessMemoryMb(nv.usedGpuMemory), None, false)
  }

  function AttributeAll(xs: seq<NvProcess>, table: ProcessTable): (ps: seq<GpuProcessInfo>)
    ensures |ps| == |xs| && forall k :: 0 <= k < |xs| ==> ps[k] == Attribute(xs[k], table)
  {
    seq(|xs|, k requires 0 <= k < |xs| => Attribute(xs[k], table))
  }

  /** The process list of a sample: unsupported exactly when both queries
      fail; otherwise the de-duplicated concatenation, compute list first. */
  function MergedProcesses(
    compute: Result<seq<NvProcess>, NvmlError>,
    graphics: Result<seq<NvProcess>, NvmlError>,
    table: ProcessTable): Option<seq<GpuProcessInfo>>
  {
    if compute.Err? && graphics.Err? then None
    else Some(AttributeAll(Firsts(OrEmpty(compute) + OrEmpty(graphics)), table))
  }

  /** The process list is unsupported exactly when both queries fail. */
  lemma MergedProcessesNone(
    compute: Result<seq<NvProcess>, NvmlError>,
    graphics: Result<seq<NvProcess>, NvmlError>,
    table: ProcessTable)
    ensures MergedProcesses(compute, graphics, table).None? <==> compute.Err? && graphics.Err?
    ensures compute.Ok? && graphics.Err? ==>
              MergedProcesses(compute, graphics, table) == Some(AttributeAll(Firsts(compute.value), table))
  {
    if compute.Ok? && graphics.Err? {
      assert OrEmpty(compute) + OrEmpty(graphics) == compute.value;
    }
  }

  /** What a supported merged list is, stated without the merge: each pid of
      either list exactly once, in order of first appearance in compute ++
      graphics, attributed from the entry that first carried it. */
  lemma MergedProcessesSpec(
    compute: Result<seq<NvProcess>, NvmlError>,
    graphics: Result<seq<NvProcess>, NvmlError>,
    table: ProcessTable,
    ps: seq<GpuProcessInfo>)
    requires MergedProcesses(compute, graphics, table) == Some(ps)
    ensures |ps| <= |OrEmpty(compute)| + |OrEmpty(graphics)|
    ensures forall k :: 0 <= k < |ps| ==> ps[k].pid in Pids(OrEmpty(compute) + OrEmpty(graphics))
    ensures forall p :: p in Pids(OrEmpty(compute)) || p in Pids(OrEmpty(graphics)) ==>
              exists k :: 0 <= k < |ps| && ps[k].pid == p
    ensures forall k1, k2 :: 0 <= k1 < k2 < |ps| ==> ps[k1].pid != ps[k2].pid
    ensures forall k1, k2 :: 0 <= k1 < k2 < |ps| ==>
              FirstIndex(OrEmpty(compute) + OrEmpty(graphics), ps[k1].pid)
                < FirstIndex(OrEmpty(compute) + OrEmpty(graphics), ps[k2].pid)
    ensures forall k :: 0 <= k < |ps| ==>
              var all := OrEmpty(compute) + OrEmpty(graphics);
              ps[k] == Attribute(all[FirstIndex(all, ps[k].pid)], table)
  {
    var all := OrEmpty(compute) + OrEmpty(graphics);
    var f := Firsts(all);
    assert ps == AttributeAll(f, table);
    FirstsSpec(all);
    PidsConcat(OrEmpty(compute), OrEmpty(graphics));
    forall k | 0 <= k < |ps| ensures ps[k].pid == f[k].pid {
    }
    forall p | p in Pids(all) ensures exists k :: 0 <= k < |ps| && ps[k].pid == p {
      assert p in Pids(f);
      var k :| 0 <= k < |f| && f[k].pid == p;
      assert ps[k].pid == p;
    }
  }

  /** One step of the merge loop: the entry at `i` adds its pid to the seen
      set, and an attributed entry to the list when its pid is new. */
  lemma MergeStep(all: seq<NvProcess>, i: nat, table: ProcessTable)
    requires i < |all|
    ensures Pids(all[..i + 1]) == Pids(all[..i]) + {all[i].pid}
    ensures all[i].pid in Pids(all[..i]) ==> Firsts(all[..i + 1]) == Firsts(all[..i])
    ensures all[i].pid !in Pids(all[..i]) ==>
              AttributeAll(Firsts(all[..i + 1]), table) == AttributeAll(Firsts(all[..i]), table) + [Attribute(all[i], table)]
  {
    var xs := all[..i + 1];
    assert xs == all[..i] + [all[i]];
    assert xs[..|xs| - 1] == all[..i];
    PidsSnoc(all[..i], all[i]);
    if all[i].pid !in Pids(all[..i]) {
      var f := Firsts(all[..i]);
      assert Firsts(xs) == f + [all[i]];
      AttributeAllSnoc(f, all[i], table);
    }
  }

  lemma AttributeAllSnoc(xs: seq<NvProcess>, x: NvProcess, table: ProcessTable)
    ensures AttributeAll(xs + [x], table) == AttributeAll(xs, table) + [Attribute(x, table)]
  {
    var l := AttributeAll(xs + [x], table);
    var r := AttributeAll(xs, table) + [Attribute(x, table)];
    assert |l| == |r|;
    forall k | 0 <= k < |l| ensures l[k] == r[k] {
      if k < |xs| {
        assert (xs + [x])[k] == xs[k];
      }
    }
  }

  /** The merge loop: walks compute ++ graphics once, skipping pids already
      seen and attributing the others. */
  method MergeProcesses(
    compute: Result<seq<NvProcess>, NvmlError>,
    graphics: Result<seq<NvProcess>, NvmlError>,
    table: ProcessTable)
    returns (processes: Option<seq<GpuProcessInfo>>)
    ensures processes == MergedProcesses(compute, graphics, table)
  {
    if compute.Err? && graphics.Err? {
      return None;
    }
    var all := OrEmpty(compute) + OrEmpty(graphics);
    var list: seq<GpuProcessInfo> := [];
    var seen: set<U32> := {};
    for i := 0 to |all|
      invariant seen == Pids(all[..i])
      invariant list == AttributeAll(Firsts(all[..i]), table)
    {
      var nv := all[i];
      MergeStep(all, i, table);
      if nv.pid in seen {
        continue;
      }
      seen := seen + {nv.pid};
      var (username, command) := GetProcessInfo(table, nv.pid);
      var entry := GpuProcessInfo(nv.pid, username, command, ProcessMemoryMb(nv.usedGpuMemory), None, false);
      assert entry == Attribute(nv, table);
      list := list + [entry];
    }
    assert all[..|all|] == all;
    processes := Some(list);
  }

  // ---------------------------------------------------------------------------
  // One device (get_gpu_info).
  // ---------------------------------------------------------------------------

  /** The sample of device `index`. Name, uuid and memory are required: the
      first of them to fail (after the device lookup) is the sample's error.
      Every other metric is optional and only leaves its field absent. */
  function GpuInfo(nvml: Nvml, index: U32, table: ProcessTable): (r: Result<GpuStat, NvmlError>)
    ensures nvml.deviceByIndex(index).Err? ==> r == Err(nvml.deviceByIndex(index).error)
    ensures nvml.deviceByIndex(index).Ok? ==>
      var d := nvml.deviceByIndex(index).value;
      && (r.Ok? <==> d.name.Ok? && d.uuid.Ok? && d.memoryInfo.Ok?)
      && (d.name.Err? ==> r == Err(d.name.error))
      && (d.name.Ok? && d.uuid.Err? ==> r == Err(d.uuid.error))
      && (d.name.Ok? && d.uuid.Ok? && d.memoryInfo.Err? ==> r == Err(d.memoryInfo.error))
    ensures r.Ok? ==> nvml.deviceByIndex(index).Ok? && SampleOf(r.value, nvml.deviceByIndex(index).value, index, table)
  {
    match nvml.deviceByIndex(index)
    case Err(e) => Err(e)
    case Ok(d) =>
      if d.name.Err? then Err(d.name.error)
      else if d.uuid.Err? then Err(d.uuid.error)
      else if d.memoryInfo.Err? then Err(d.memoryInfo.error)
      else Ok(GpuStat(
        index := index,
        name := d.name.value,
        uuid := d.uuid.value,
        temperature := d.temperature.ToOption(),
        fanSpeed := d.fanSpeed.ToOption(),
        utilization := d.utilization.ToOption(),
        utilizationEnc := d.encoderUtilization.ToOption(),
        utilizationDec := d.decoderUtilization.ToOption(),
        powerDraw := if d.powerUsage.Ok? then Some(MilliwattsToWatts(d.powerUsage.value)) else None,
        powerLimit := if d.enforcedPowerLimit.Ok? then Some(MilliwattsToWatts(d.enforcedPowerLimit.value)) else None,
        memoryUsed := BytesToMb(d.memoryInfo.value.used),
        memoryTotal := BytesToMb(d.memoryInfo.value.total),
        processes := MergedProcesses(d.computeProcesses, d.graphicsProcesses, table),
        available := true))
  }

  /** An optional metric is present exactly when its query succeeded. */
  predicate OptionalOf<T(==)>(field: Option<T>, query: Result<T, NvmlError>) {
    (field.Some? <==> query.Ok?) && (field.Some? ==> field.value == query.value)
  }

  /** A power field is the successful milliwatt reading in whole watts. */
  predicate WattsOf(field: Option<U32>, query: Result<U32, NvmlError>) {
    (field.Some? <==> query.Ok?) && (field.Some? ==> WholeUnits(field.value, query.value, MW_PER_W))
  }

  /** What a successful sample holds, field by field. */
  predicate SampleOf(g: GpuStat, d: Device, index: U32, table: ProcessTable) {
    && g.available && g.index == index
    && d.name == Ok(g.name) && d.uuid == Ok(g.uuid) && d.memoryInfo.Ok?
    && OptionalOf(g.temperature, d.temperature)
    && OptionalOf(g.fanSpeed, d.fanSpeed)
    && OptionalOf(g.utilization, d.utilization)
    && OptionalOf(g.utilizationEnc, d.encoderUtilization)
    && OptionalOf(g.utilizationDec, d.decoderUtilization)
    && WattsOf(g.powerDraw, d.powerUsage)
    && WattsOf(g.powerLimit, d.enforcedPowerLimit)
    && WholeUnits(g.memoryUsed, d.memoryInfo.value.used, MB)
    && WholeUnits(g.memoryTotal, d.memoryInfo.value.total, MB)
    && g.processes == MergedProcesses(d.computeProcesses, d.graphicsProcesses, table)
  }

  /** A sample never reports more memory used than total when the driver
      does not. */
  lemma SampleMemoryOrdered(nvml: Nvml, index: U32, table: ProcessTable)
    requires GpuInfo(nvml, index, table).Ok?
    requires var m := nvml.deviceByIndex(index).value.memoryInfo.value; m.used <= m.total
    ensures GpuInfo(nvml, index, table).value.memoryUsed <= GpuInfo(nvml, index, table).value.memoryTotal
  {
    var m := nvml.deviceByIndex(index).value.memoryInfo.value;
    MegabytesMonotone(m.used, m.total);
  }

  method GetGpuInfo(nvml: Nvml, index: U32, table: ProcessTable) returns (r: Result<GpuStat, NvmlError>)
    ensures r == GpuInfo(nvml, index, table)
  {
    var device := nvml.deviceByIndex(index);
    if device.Err? {
      return Err(device.error);
    }
    var d := device.value;
    if d.name.Err? {
      return Err(d.name.error);
    }
    if d.uuid.Err? {
      return Err(d.uuid.error);
    }
    var temperature := d.temperature.ToOption();
    var fanSpeed := d.fanSpeed.ToOption();
    if d.memoryInfo.Err? {
      return Err(d.memoryInfo.error);
    }
    var memoryUsed := BytesToMb(d.memoryInfo.value.used);
    var memoryTotal := BytesToMb(d.memoryInfo.value.total);
    var utilization := d.utilization.ToOption();
    var utilizationEnc := d.encoderUtilization.ToOption();
    var utilizationDec := d.decoderUtilization.ToOption();
    var powerDraw := if d.powerUsage.Ok? then Some(MilliwattsToWatts(d.powerUsage.value)) else None;
    var powerLimit := if d.enforcedPowerLimit.Ok? then Some(MilliwattsToWatts(d.enforcedPowerLimit.value)) else None;
    var processes := MergeProcesses(d.computeProcesses, d.graphicsProcesses, table);
    r := Ok(GpuStat(index, d.name.value, d.uuid.value, temperature, fanSpeed, utilization,
                    utilizationEnc, utilizationDec, powerDraw, powerLimit, memoryUsed, memoryTotal,
                    processes, true));
  }

  // ---------------------------------------------------------------------------
  // All devices (new_query).
  // ---------------------------------------------------------------------------

  /** The devices to query: the explicit list as given, else 0..count. */
  function QueryIndices(gpuIds: Option<seq<U32>>, count: U32): (ids: seq<U32>)
    ensures gpuIds.Some? ==> ids == gpuIds.value
    ensures gpuIds.None? ==> |ids| == count && forall k :: 0 <= k < count ==> ids[k] == k
  {
    match gpuIds
    case Some(ids) => ids
    case None => seq(count, k requires 0 <= k < count => k as U32)
  }

  /** The placeholder for a device whose sample failed. */
  function UnavailableStat(index: U32, e: NvmlError): GpuStat {
    GpuStat(index, "((Error: " + e.message + "))", "", None, None, None, None, None,
            None, None, 0, 0, None, false)
  }

  /** The entry of device `index` in a collection: its sample, or the
      unavailable placeholder carrying the error text. */
  function SampleOrPlaceholder(nvml: Nvml, table: ProcessTable, index: U32): (g: GpuStat)
    ensures g.index == index
    ensures g.available <==> GpuInfo(nvml, index, table).Ok?
    ensures GpuInfo(nvml, index, table).Ok? ==> g == GpuInfo(nvml, index, table).value
    ensures GpuInfo(nvml, index, table).Err? ==>
      && g.name == "((Error: " + GpuInfo(nvml, index, table).error.message + "))"
      && g.uuid == [] && g.memoryUsed == 0 && g.memoryTotal == 0 && g.processes.None?
      && g.temperature.None? && g.fanSpeed.None? && g.utilization.None?
      && g.utilizationEnc.None? && g.utilizationDec.None?
      && g.powerDraw.None? && g.powerLimit.None?
  {
    match GpuInfo(nvml, index, table)
    case Ok(stat) => stat
    case Err(e) => UnavailableStat(index, e)
  }

  /** Samples every requested device, in the requested order, replacing a
      device that fails by a placeholder. Only a failing device count fails
      the whole query, even when the indices are given explicitly. */
  method NewQuery(
    nvml: Nvml, gpuIds: Option<seq<U32>>, table: ProcessTable,
    hostname: Option<string>, queryTime: string)
    returns (r: Result<GpuStatCollection, NvmlError>)
    ensures nvml.deviceCount.Err? ==> r == Err(nvml.deviceCount.error)
    ensures nvml.deviceCount.Ok? ==>
      && r.Ok?
      && r.value.hostname == hostname.GetOr("unknown")
      && r.value.queryTime == queryTime
      && r.value.driverVersion == nvml.driverVersion.ToOption()
      && var ids := QueryIndices(gpuIds, nvml.deviceCount.value);
         && |r.value.gpus| == |ids|
         && forall k :: 0 <= k < |ids| ==> r.value.gpus[k] == SampleOrPlaceholder(nvml, table, ids[k])
  {
    if nvml.deviceCount.Err? {
      return Err(nvml.deviceCount.error);
    }
    var deviceCount := nvml.deviceCount.value;
    var host := hostname.GetOr("unknown");
    var driverVersion := nvml.driverVersion.ToOption();

    var gpusToQuery := QueryIndices(gpuIds, deviceCount);

    var gpus: seq<GpuStat> := [];
    for i := 0 to |gpusToQuery|
      invariant |gpus| == i
      invariant forall k :: 0 <= k < i ==> gpus[k] == SampleOrPlaceholder(nvml, table, gpusToQuery[k])
    {
      var index := gpusToQuery[i];
      var info := GetGpuInfo(nvml, index, table);
      match info {
        case Ok(stat) =>
          gpus := gpus + [stat];
        case Err(e) =>
          gpus := gpus + [GpuStat(
            index := index,
            name := "((Error: " + e.message + "))",
            uuid := "",
            temperature := None,
            fanSpeed := None,
            utilization := None,
            utilizationEnc := None,
            utilizationDec := None,
            powerDraw := None,
            powerLimit := None,
            memoryUsed := 0,
            memoryTotal := 0,
            processes := None,
            available := false)];
      }
    }
    r := Ok(GpuStatCollection(host, queryTime, driverVersion, gpus));
  }
}

=== FILE: display.dfy ===
/** The plain-text renderer of src/display.rs: one line per device sample,
    built field by field under the display options, and the printout of a
    whole collection with its header and the auto-sized name column. */
module Display {
  import opened Text
  import opened Core

  const DEFAULT_GPUNAME_WIDTH: nat := 16
  const NOT_SUPPORTED := "Not Supported"
  /** The truncation marker: one char, three bytes in UTF-8. */
  const ELLIPSIS := "…"
  const NO_GPUS := "(No GPUs are available)"

  datatype DisplayOptions = DisplayOptions(
    showCmd: bool,
    showUser: bool,
    showPid: bool,
    showFanSpeed: bool,
    showCodec: bool,
    showPower: bool,
    showPowerLimit: bool,
    noProcesses: bool,
    noHeader: bool,
    gpunameWidth: Option<nat>,
    forceColor: bool,
    noColor: bool)

  // ---------------------------------------------------------------------------
  // shorten_left. Lengths are bytes; the cuts are byte slices of Rust strings.
  // ---------------------------------------------------------------------------

  /** shorten_left as written: `None` where a byte slice is not on a char
      boundary and Rust panics. */
  function ShortenLeftAsWritten(text: string, width: nat, placeholder: string): Option<string>
  {
    if width == 0 then Some([])
    else if ByteLen(text) <= width then Some(text)
    else if width <= ByteLen(placeholder) then BytePrefix(placeholder, width)
    else
      match ByteSuffix(text, width - ByteLen(placeholder))
      case None => None
      case Some(tail) => Some(placeholder + tail)
  }

  /** With the three-byte ellipsis, a name column one or two bytes wide
      panics on every name longer than the column. */
  lemma ShortenLeftPanicsOnNarrowColumn(text: string, width: nat)
    requires width == 1 || width == 2
    requires ByteLen(text) > width
    ensures ShortenLeftAsWritten(text, width, ELLIPSIS).None?
  {
    assert ByteLen(ELLIPSIS) == 3;
  }

  /** Past the ellipsis, the tail cut panics whenever the last char of the
      name is wider than the bytes left for the tail. */
  lemma ShortenLeftPanicsInsideChar(text: string, width: nat)
    requires width > ByteLen(ELLIPSIS) && ByteLen(text) > width
    requires text != [] && Utf8Len(text[|text| - 1]) > width - ByteLen(ELLIPSIS)
    ensures ShortenLeftAsWritten(text, width, ELLIPSIS).None?
  {
    WrittenTailCut(text, width, ELLIPSIS);
    assert ByteSuffix(text, width - ByteLen(ELLIPSIS)).None?;
  }

  /** A name ending in the three-byte trade mark sign, in a five-byte
      column: two bytes are left for the tail, inside the sign. */
  lemma ShortenLeftPanicsOnTradeMark()
    ensures ShortenLeftAsWritten("GeForce\U{2122}", 5, ELLIPSIS).None?
  {
    var text := "GeForce\U{2122}";
    assert ByteLen(ELLIPSIS) == 3;
    ByteLenAscii("GeForce");
    ByteLenSnoc("GeForce", '\U{2122}');
    assert text == "GeForce" + ['\U{2122}'];
    ShortenLeftPanicsInsideChar(text, 5);
  }

  /** Whenever the code as written does not panic on a text longer than
      the width, its result is exactly `width` bytes: the cuts land on
      char boundaries, so nothing is rounded away. */
  lemma ShortenLeftWrittenExact(text: string, width: nat, placeholder: string)
    requires ByteLen(text) > width
    requires ShortenLeftAsWritten(text, width, placeholder).Some?
    ensures ByteLen(ShortenLeftAsWritten(text, width, placeholder).value) == width
  {
    if width > 0 {
      if width <= ByteLen(placeholder) {
        BytePrefixExact(placeholder, width);
      } else {
        var n := width - ByteLen(placeholder);
        WrittenTailCut(text, width, placeholder);
        ByteSuffixExact(text, n);
        ByteLenConcat(placeholder, ByteSuffix(text, n).value);
      }
    }
  }

  /** When the bytes left for the tail end at a char boundary of the text,
      the code as written does not panic: it gives the placeholder and the
      chars after that boundary. */
  lemma ShortenLeftWrittenAtBoundary(text: string, width: nat, placeholder: string, k: nat)
    requires ByteLen(text) > width > ByteLen(placeholder)
    requires k <= |text| && ByteLen(text[k..]) == width - ByteLen(placeholder)
    ensures ShortenLeftAsWritten(text, width, placeholder) == Some(placeholder + text[k..])
  {
    WrittenTailCut(text, width, placeholder);
    ByteSuffixAtBoundary(text, k);
  }

  /** "Tesla™ X" is 10 bytes; in an eight-byte column five bytes are left
      for the tail, and they start right before "™". */
  lemma ShortenLeftTeslaAtBoundary()
    ensures ShortenLeftAsWritten("Tesla\U{2122} X", 8, ELLIPSIS) == Some(ELLIPSIS + "\U{2122} X")
  {
    var head, tail := "Tesla", "\U{2122} X";
    var text := head + tail;
    assert text == "Tesla\U{2122} X";
    assert ByteLen(ELLIPSIS) == 3;
    ByteLenAscii(head);
    ByteLenAscii(" X");
    ByteLenCons('\U{2122}', " X");
    assert tail == ['\U{2122}'] + " X";
    ByteLenConcat(head, tail);
    assert text[5..] == tail;
    ShortenLeftWrittenAtBoundary(text, 8, ELLIPSIS, 5);
  }

  /** A column at least as wide as the placeholder never panics on ASCII text. */
  lemma ShortenLeftAsciiSafe(text: string, width: nat, placeholder: string)
    requires IsAscii(text) && width >= ByteLen(placeholder)
    ensures ShortenLeftAsWritten(text, width, placeholder).Some?
  {
    ByteLenAscii(text);
    if width > 0 && ByteLen(text) > width {
      if width == ByteLen(placeholder) {
        BytePrefixWhole(placeholder);
      } else {
        TailCutSafe(text, width, placeholder);
      }
    }
  }

  lemma TailCutSafe(text: string, width: nat, placeholder: string)
    requires ByteLen(text) == |text| && ByteLen(text) > width > ByteLen(placeholder)
    ensures ShortenLeftAsWritten(text, width, placeholder).Some?
  {
    ByteSuffixOneByteChars(text, width - ByteLen(placeholder));
    WrittenTailCut(text, width, placeholder);
  }

  /** The branch of the code as written that cuts the text. */
  lemma WrittenTailCut(text: string, width: nat, placeholder: string)
    requires ByteLen(text) > width > ByteLen(placeholder)
    ensures var tail := ByteSuffix(text, width - ByteLen(placeholder));
      ShortenLeftAsWritten(text, width, placeholder) == if tail.Some? then Some(placeholder + tail.value) else None
  {
    assert width != 0 && !(ByteLen(text) <= width) && !(width <= ByteLen(placeholder));
  }

  /** shorten_left with its cuts rounded to char boundaries, so that it
      never panics: the prefix of the placeholder and the tail of the text
      are the longest that fit. */
  function ShortenLeft(text: string, width: nat, placeholder: string): string {
    if width == 0 then []
    else if ByteLen(text) <= width then text
    else if width <= ByteLen(placeholder) then FloorPrefix(placeholder, width)
    else placeholder + CeilSuffix(text, width - ByteLen(placeholder))
  }

  /** The branch that cuts the text. */
  lemma TailCut(text: string, width: nat, placeholder: string)
    requires ByteLen(text) > width > ByteLen(placeholder)
    ensures ShortenLeft(text, width, placeholder) == placeholder + CeilSuffix(text, width - ByteLen(placeholder))
  {
    assert width != 0 && !(ByteLen(text) <= width) && !(width <= ByteLen(placeholder));
  }

  /** The result fits in the width, in bytes and so in chars; text that
      fits is kept whole, and a zero width gives nothing. */
  lemma ShortenLeftFits(text: string, width: nat, placeholder: string)
    ensures width == 0 ==> ShortenLeft(text, width, placeholder) == []
    ensures ByteLen(text) <= width ==> ShortenLeft(text, width, placeholder) == text
    ensures ByteLen(ShortenLeft(text, width, placeholder)) <= width
    ensures |ShortenLeft(text, width, placeholder)| <= width
  {
    if width > 0 && ByteLen(text) > width {
      if width <= ByteLen(placeholder) {
        assert ShortenLeft(text, width, placeholder) == FloorPrefix(placeholder, width);
        FloorPrefixLongest(placeholder, width);
      } else {
        TailCut(text, width, placeholder);
        CeilSuffixLongest(text, width - ByteLen(placeholder));
        ByteLenConcat(placeholder, CeilSuffix(text, width - ByteLen(placeholder)));
      }
    }
  }

  /** A text too long for a column wider than the placeholder becomes the
      placeholder followed by a tail of the text. */
  lemma ShortenLeftKeepsTail(text: string, width: nat, placeholder: string)
    requires ByteLen(text) > width > ByteLen(placeholder)
    ensures placeholder <= ShortenLeft(text, width, placeholder)
    ensures EndsWith(text, ShortenLeft(text, width, placeholder)[|placeholder|..])
  {
    var tail := CeilSuffix(text, width - ByteLen(placeholder));
    var r := ShortenLeft(text, width, placeholder);
    TailCut(text, width, placeholder);
    CeilSuffixLongest(text, width - ByteLen(placeholder));
    PrefixAndRest(placeholder, tail);
    assert r[|placeholder|..] == tail;
    assert EndsWith(text, tail);
  }

  /** On ASCII text the tail is exactly as many chars as the width leaves
      after the placeholder, and the result fills the width. */
  lemma ShortenLeftAscii(text: string, width: nat, placeholder: string)
    requires IsAscii(text) && ByteLen(text) > width > ByteLen(placeholder)
    ensures width - ByteLen(placeholder) <= |text|
    ensures ShortenLeft(text, width, placeholder) == placeholder + text[|text| - (width - ByteLen(placeholder))..]
    ensures ByteLen(ShortenLeft(text, width, placeholder)) == width
  {
    ByteLenAscii(text);
    ShortenLeftOneByteChars(text, width, placeholder, width - ByteLen(placeholder));
  }

  lemma ShortenLeftOneByteChars(text: string, width: nat, placeholder: string, n: nat)
    requires ByteLen(text) == |text| && ByteLen(text) > width > ByteLen(placeholder)
    requires n == width - ByteLen(placeholder)
    ensures n <= |text|
    ensures ShortenLeft(text, width, placeholder) == placeholder + text[|text| - n..]
    ensures ByteLen(ShortenLeft(text, width, placeholder)) == width
  {
    var tail := text[|text| - n..];
    CeilSuffixOneByteChars(text, n);
    TailCut(text, width, placeholder);
    ByteLenConcat(placeholder, tail);
  }

  /** Wherever the code as written does not panic, the corrected version
      gives the same string. */
  lemma ShortenLeftAgrees(text: string, width: nat, placeholder: string)
    requires ShortenLeftAsWritten(text, width, placeholder).Some?
    ensures ShortenLeft(text, width, placeholder) == ShortenLeftAsWritten(text, width, placeholder).value
  {
    if width > 0 && ByteLen(text) > width {
      if width <= ByteLen(placeholder) {
        BytePrefixIsFloor(placeholder, width);
        assert ShortenLeft(text, width, placeholder) == FloorPrefix(placeholder, width);
      } else {
        TailAgrees(text, width, placeholder);
      }
    }
  }

  lemma TailAgrees(text: string, width: nat, placeholder: string)
    requires ByteLen(text) > width > ByteLen(placeholder)
    requires ShortenLeftAsWritten(text, width, placeholder).Some?
    ensures ShortenLeft(text, width, placeholder) == ShortenLeftAsWritten(text, width, placeholder).value
  {
    var n := width - ByteLen(placeholder);
    WrittenTailCut(text, width, placeholder);
    TailCut(text, width, placeholder);
    ByteSuffixIsCeil(text, n);
  }

  // ---------------------------------------------------------------------------
  // opt_repr and rjust.
  // ---------------------------------------------------------------------------

  /** A present number in decimal, the placeholder when absent. */
  function OptRepr(v: Option<nat>, none: string): (r: string)
    ensures v.None? ==> r == none
    ensures v.Some? ==> AllDigits(r) && |r| >= 1 && DecimalValue(r) == v.value
    ensures v.Some? && |r| > 1 ==> r[0] != '0'
  {
    match v
    case Some(x) =>
      DecimalRoundTrip(x);
      NatToString(x)
    case None => none
  }

  /** `format!("{:>w$}", v)`: `v` right-aligned in `w` chars. */
  function Rjust(v: string, w: nat): (r: string)
    ensures |r| == if |v| < w then w else |v|
    ensures r[|r| - |v|..] == v
    ensures forall i :: 0 <= i < |r| - |v| ==> r[i] == ' '
  {
    if |v| < w then Spaces(w - |v|) + v else v
  }

  // ---------------------------------------------------------------------------
  // The fields of a device line.
  // ---------------------------------------------------------------------------

  function IndexField(index: nat): string {
    "[" + NatToString(index) + "] "
  }

  /** The name column with its separator; nothing when the width is 0. */
  function NameColumn(name: string, width: nat): string {
    if width == 0 then [] else Rjust(ShortenLeft(name, width, ELLIPSIS), width) + " | "
  }

  /** A three-wide metric, "??" when absent. */
  function Metric3(v: Option<nat>): string {
    Rjust(OptRepr(v, "??"), 3)
  }

  function TemperatureField(g: GpuStat): string {
    Metric3(g.temperature) + "°C, "
  }

  function FanField(g: GpuStat, opts: DisplayOptions): string {
    if opts.showFanSpeed then Metric3(g.fanSpeed) + " %, " else []
  }

  function UtilizationField(g: GpuStat): string {
    Metric3(g.utilization) + " %"
  }

  function CodecField(g: GpuStat, opts: DisplayOptions): string {
    if opts.showCodec then
      " (" + "E: " + Metric3(g.utilizationEnc) + " %, D: " + Metric3(g.utilizationDec) + " %" + ")"
    else []
  }

  function PowerField(g: GpuStat, opts: DisplayOptions): string {
    if opts.showPower then
      ",  " + Metric3(g.powerDraw) + " "
      + (if opts.showPowerLimit then "/ " + Metric3(g.powerLimit) + " W" else [])
    else []
  }

  function MemoryField(g: GpuStat): string {
    " | " + Rjust(NatToString(g.memoryUsed), 5) + " / " + Rjust(NatToString(g.memoryTotal), 5) + " MB"
  }

  /** Everything between the name column and the process segment. */
  function Metrics(g: GpuStat, opts: DisplayOptions): string {
    TemperatureField(g) + FanField(g, opts) + UtilizationField(g)
    + CodecField(g, opts) + PowerField(g, opts) + MemoryField(g)
  }

  // ---------------------------------------------------------------------------
  // The process segment.
  // ---------------------------------------------------------------------------

  /** The username is shown when asked for, or when the command is not. */
  predicate ShowUsername(opts: DisplayOptions) {
    opts.showUser || !opts.showCmd
  }

  function UserPart(p: GpuProcessInfo, opts: DisplayOptions): string {
    if ShowUsername(opts) then p.username.GetOr("--") else []
  }

  function CommandPart(p: GpuProcessInfo, opts: DisplayOptions): string {
    if opts.showCmd then (if ShowUsername(opts) then ":" else []) + p.command else []
  }

  function PidPart(p: GpuProcessInfo, opts: DisplayOptions): string {
    if opts.showPid then
      "/" + match p.realPid
            case Some(rp) => NatToString(p.pid) + "->" + NatToString(rp)
            case None => NatToString(p.pid)
    else []
  }

  function MemoryPart(p: GpuProcessInfo): string {
    "(" + OptRepr(p.gpuMemoryUsage, "?") + "M)"
  }

  /** The segment of one process. */
  function ProcessEntry(p: GpuProcessInfo, opts: DisplayOptions): string {
    " " + UserPart(p, opts) + CommandPart(p, opts) + PidPart(p, opts) + MemoryPart(p)
  }

  /** The segments of a list of processes, in order. */
  function ProcessEntries(ps: seq<GpuProcessInfo>, opts: DisplayOptions): string {
    if ps == [] then []
    else ProcessEntries(ps[..|ps| - 1], opts) + ProcessEntry(ps[|ps| - 1], opts)
  }

  function ProcessSegment(processes: Option<seq<GpuProcessInfo>>, opts: DisplayOptions): string {
    if opts.noProcesses then []
    else
      " |" + match processes
             case None => " (" + NOT_SUPPORTED + ")"
             case Some(ps) => ProcessEntries(ps, opts)
  }

  /** The device part of a line: index, name column and metrics. */
  function DeviceColumns(g: GpuStat, opts: DisplayOptions): string {
    IndexField(g.index) + NameColumn(g.name, opts.gpunameWidth.GetOr(DEFAULT_GPUNAME_WIDTH)) + Metrics(g, opts)
  }

  /** The plain-text line of one device. */
  function Line(g: GpuStat, opts: DisplayOptions): string {
    DeviceColumns(g, opts) + ProcessSegment(g.processes, opts)
  }

  // ---------------------------------------------------------------------------
  // Building the strings (format_process, format_line).
  // ---------------------------------------------------------------------------

  method FormatProcess(p: GpuProcessInfo, opts: DisplayOptions) returns (s: string)
    ensures s == ProcessEntry(p, opts)
  {
    s := " ";
    var showUsername := opts.showUser || !opts.showCmd;
    if showUsername {
      s := s + p.username.GetOr("--");
    }
    ghost var upToUser := s;
    assert upToUser == " " + UserPart(p, opts);
    if opts.showCmd {
      if showUsername {
        s := s + ":";
      }
      s := s + p.command;
      assert s == upToUser + CommandPart(p, opts);
    }
    ghost var upToCommand := s;
    assert upToCommand == " " + UserPart(p, opts) + CommandPart(p, opts);
    if opts.showPid {
      var pidStr := match p.realPid
        case Some(rp) => NatToString(p.pid) + "->" + NatToString(rp)
        case None => NatToString(p.pid);
      s := s + ("/" + pidStr);
    }
    assert s == upToCommand + PidPart(p, opts);
    var memStr := match p.gpuMemoryUsage
      case Some(m) => NatToString(m)
      case None => "?";
    assert memStr == OptRepr(p.gpuMemoryUsage, "?");
    s := s + ("(" + memStr + "M)");
  }

  /** format_line without colour: each field is formatted and appended in
      turn, then the process segment, one process at a time. */
  method FormatLine(g: GpuStat, opts: DisplayOptions) returns (s: string)
    ensures s == Line(g, opts)
  {
    s := IndexField(g.index);
    var gpuWidth := opts.gpunameWidth.GetOr(DEFAULT_GPUNAME_WIDTH);
    s := s + NameColumn(g.name, gpuWidth);
    ghost var head := s;
    s := s + TemperatureField(g);
    s := s + FanField(g, opts);
    s := s + UtilizationField(g);
    s := s + CodecField(g, opts);
    s := s + PowerField(g, opts);
    s := s + MemoryField(g);
    Regroup(head, TemperatureField(g), FanField(g, opts), UtilizationField(g),
            CodecField(g, opts), PowerField(g, opts), MemoryField(g));
    s := AppendProcessSegment(s, g.processes, opts);
  }

  /** The tail of format_line: the " |" separator and each process in
      turn, or the unsupported marker, unless processes are hidden. */
  method AppendProcessSegment(prefix: string, processes: Option<seq<GpuProcessInfo>>, opts: DisplayOptions)
    returns (s: string)
    ensures s == prefix + ProcessSegment(processes, opts)
  {
    s := prefix;
    if !opts.noProcesses {
      s := s + " |";
      match processes {
        case None =>
          s := s + (" (" + NOT_SUPPORTED + ")");
          Assoc(prefix, " |", " (" + NOT_SUPPORTED + ")");
        case Some(procs) =>
          for i := 0 to |procs|
            invariant s == prefix + " |" + ProcessEntries(procs[..i], opts)
          {
            assert procs[..i + 1][..i] == procs[..i];
            var entry := FormatProcess(procs[i], opts);
            Assoc(prefix + " |", ProcessEntries(procs[..i], opts), entry);
            s := s + entry;
          }
          assert procs[..|procs|] == procs;
          Assoc(prefix, " |", ProcessEntries(procs, opts));
      }
    }
  }

  lemma Regroup(h: string, a: string, b: string, c: string, d: string, e: string, f: string)
    ensures h + a + b + c + d + e + f == h + (a + b + c + d + e + f)
  {
  }

  // ---------------------------------------------------------------------------
  // The printout of a collection (print_formatted), plain-text path.
  // ---------------------------------------------------------------------------

  /** Colour is off with --no-color whatever else is given, on with
      --force-color, and otherwise follows whether stdout is a terminal. */
  function UseColor(opts: DisplayOptions, stdoutIsTerminal: bool): (r: bool)
    ensures opts.noColor ==> !r
    ensures !opts.noColor && opts.forceColor ==> r
    ensures !opts.noColor && !opts.forceColor ==> r == stdoutIsTerminal
  {
    if opts.noColor then false
    else if opts.forceColor then true
    else stdoutIsTerminal
  }

  /** The longest name, in bytes; 0 for no devices. */
  function MaxNameLen(gpus: seq<GpuStat>): (m: nat)
    ensures forall k :: 0 <= k < |gpus| ==> ByteLen(gpus[k].name) <= m
    ensures gpus == [] ==> m == 0
    ensures gpus != [] ==> exists k :: 0 <= k < |gpus| && m == ByteLen(gpus[k].name)
  {
    if gpus == [] then 0
    else
      var rest := MaxNameLen(gpus[1..]);
      var here := ByteLen(gpus[0].name);
      assert forall k :: 1 <= k < |gpus| ==> gpus[k] == gpus[1..][k - 1];
      if here >= rest then here else rest
  }

  /** The name column width: as given, else the longest name but at least
      the default. */
  function ResolvedWidth(gpus: seq<GpuStat>, opts: DisplayOptions): (w: nat)
    ensures opts.gpunameWidth.Some? ==> w == opts.gpunameWidth.value
    ensures opts.gpunameWidth.None? ==>
      && w >= DEFAULT_GPUNAME_WIDTH
      && (forall k :: 0 <= k < |gpus| ==> ByteLen(gpus[k].name) <= w)
      && (w == DEFAULT_GPUNAME_WIDTH || exists k :: 0 <= k < |gpus| && w == ByteLen(gpus[k].name))
  {
    match opts.gpunameWidth
    case Some(w) => w
    case None =>
      var m := MaxNameLen(gpus);
      if m >= DEFAULT_GPUNAME_WIDTH then m else DEFAULT_GPUNAME_WIDTH
  }

  function HeaderLines(c: GpuStatCollection, opts: DisplayOptions): seq<string> {
    if opts.noHeader then []
    else [c.hostname + "  " + c.queryTime + "  " + c.driverVersion.GetOr("N/A")]
  }

  /** The options the device lines are rendered with: the name width resolved. */
  function LineOptions(c: GpuStatCollection, opts: DisplayOptions): DisplayOptions {
    opts.(gpunameWidth := Some(ResolvedWidth(c.gpus, opts)))
  }

  /** Each device's line, rendered with the same options, in order. */
  function Lines(gpus: seq<GpuStat>, o: DisplayOptions): (r: seq<string>)
    ensures |r| == |gpus|
  {
    if gpus == [] then [] else Lines(gpus[..|gpus| - 1], o) + [Line(gpus[|gpus| - 1], o)]
  }

  lemma {:induction false} LinesAt(gpus: seq<GpuStat>, o: DisplayOptions, k: nat)
    requires k < |gpus|
    ensures Lines(gpus, o)[k] == Line(gpus[k], o)
  {
    var init := gpus[..|gpus| - 1];
    var last := gpus[|gpus| - 1];
    var r := Lines(gpus, o);
    assert r == Lines(init, o) + [Line(last, o)];
    if k < |init| {
      LinesAt(init, o, k);
      assert r[k] == Lines(init, o)[k];
      assert init[k] == gpus[k];
    } else {
      assert k == |gpus| - 1;
      assert r[k] == Line(last, o);
    }
  }

  lemma LinesSnoc(gpus: seq<GpuStat>, i: nat, o: DisplayOptions, line: string)
    requires i < |gpus| && line == Line(gpus[i], o)
    ensures Lines(gpus[..i + 1], o) == Lines(gpus[..i], o) + [line]
  {
    var xs := gpus[..i + 1];
    assert xs[..|xs| - 1] == gpus[..i];
    assert xs[|xs| - 1] == gpus[i];
  }

  /** Everything print_formatted writes without colour, line by line. */
  function Printout(c: GpuStatCollection, opts: DisplayOptions): seq<string> {
    HeaderLines(c, opts) + Lines(c.gpus, LineOptions(c, opts))
    + (if c.gpus == [] then [NO_GPUS] else [])
  }

  /** The printout: the header line unless suppressed, then each device's
      line rendered with the resolved name width, in order, then the no-GPU
      message exactly when there is no device. */
  lemma PrintoutShape(c: GpuStatCollection, opts: DisplayOptions)
    ensures var out := Printout(c, opts);
      var h := if opts.noHeader then 0 else 1;
      && |out| == h + |c.gpus| + (if c.gpus == [] then 1 else 0)
      && (!opts.noHeader ==> out[0] == c.hostname + "  " + c.queryTime + "  " + c.driverVersion.GetOr("N/A"))
      && (forall k :: 0 <= k < |c.gpus| ==> out[h + k] == Line(c.gpus[k], LineOptions(c, opts)))
      && (c.gpus == [] ==> out[|out| - 1] == NO_GPUS)
  {
    var lineOpts := LineOptions(c, opts);
    var body := Lines(c.gpus, lineOpts);
    var out := Printout(c, opts);
    var h := HeaderLines(c, opts);
    forall k | 0 <= k < |c.gpus|
      ensures out[|h| + k] == Line(c.gpus[k], lineOpts)
    {
      IndexMiddle(h, body, if c.gpus == [] then [NO_GPUS] else [], k);
      LinesAt(c.gpus, lineOpts, k);
    }
  }

  /** The device loop of print_formatted: each device's line, in order,
      after what has been written so far. */
  method AppendLines(prefix: seq<string>, gpus: seq<GpuStat>, o: DisplayOptions) returns (lines: seq<string>)
    ensures lines == prefix + Lines(gpus, o)
  {
    lines := prefix;
    for i := 0 to |gpus|
      invariant lines == prefix + Lines(gpus[..i], o)
    {
      var line := FormatLine(gpus[i], o);
      LinesSnoc(gpus, i, o, line);
      Assoc(prefix, Lines(gpus[..i], o), [line]);
      lines := lines + [line];
    }
    assert gpus[..|gpus|] == gpus;
  }

  /** print_formatted without colour: the header unless suppressed, one line
      per device with the resolved name width, and the no-GPU message when
      there is no device. */
  method PrintFormatted(c: GpuStatCollection, opts: DisplayOptions) returns (lines: seq<string>)
    ensures lines == Printout(c, opts)
  {
    var gpuWidth := ResolvedWidth(c.gpus, opts);
    var lineOpts := opts.(gpunameWidth := Some(gpuWidth));
    assert lineOpts == LineOptions(c, opts);

    lines := [];
    if !lineOpts.noHeader {
      var driver := c.driverVersion.GetOr("N/A");
      lines := lines + [c.hostname + "  " + c.queryTime + "  " + driver];
    }
    assert lines == HeaderLines(c, opts);
    lines := AppendLines(lines, c.gpus, lineOpts);

    if c.gpus == [] {
      lines := lines + [NO_GPUS];
    }
  }

  // ---------------------------------------------------------------------------
  // Properties of the rendering.
  // ---------------------------------------------------------------------------

  /** A name column is always exactly its width plus the separator wide, and
      a name that fits is shown whole, right-aligned. */
  lemma NameColumnWidth(name: string, width: nat)
    requires width > 0
    ensures |NameColumn(name, width)| == width + 3
    ensures NameColumn(name, width)[width..] == " | "
    ensures ByteLen(name) <= width ==> NameColumn(name, width) == Rjust(name, width) + " | "
  {
    ShortenLeftFits(name, width, ELLIPSIS);
  }

  /** With the width sized automatically, no name is truncated and every
      name column has the same width. */
  lemma AutoWidthShowsWholeNames(gpus: seq<GpuStat>, opts: DisplayOptions, k: nat)
    requires opts.gpunameWidth.None? && k < |gpus|
    ensures var w := ResolvedWidth(gpus, opts);
      && NameColumn(gpus[k].name, w) == Rjust(gpus[k].name, w) + " | "
      && |NameColumn(gpus[k].name, w)| == w + 3
  {
    NameColumnWidth(gpus[k].name, ResolvedWidth(gpus, opts));
  }

  /** An absent metric reads " ??"; a present one below 1000 takes exactly
      three chars: its digits, padded on the left with spaces. */
  lemma Metric3Shape(v: Option<nat>)
    requires v.None? || v.value < 1000
    ensures |Metric3(v)| == 3
    ensures v.None? ==> Metric3(v) == " ??"
    ensures v.Some? ==>
              && |NatToString(v.value)| <= 3
              && Metric3(v) == Spaces(3 - |NatToString(v.value)|) + NatToString(v.value)
  {
    if v.Some? {
      Metric3Present(v.value);
    } else {
      Metric3Absent();
    }
  }

  lemma Metric3Absent()
    ensures Metric3(None) == " ??"
  {
    var pad := Spaces(1);
    assert pad == " ";
    assert Metric3(None) == pad + "??";
  }

  lemma Metric3Present(x: nat)
    requires x < 1000
    ensures |NatToString(x)| <= 3
    ensures Metric3(Some(x)) == Spaces(3 - |NatToString(x)|) + NatToString(x)
  {
    assert Pow10(3) == 1000 by { assert Pow10(1) == 10; assert Pow10(2) == 100; }
    DecimalLength(x, 3);
    assert OptRepr(Some(x), "??") == NatToString(x);
  }

  /** The metrics fit their columns: values below 1000 and memory below
      100000 MB. */
  predicate Fits(g: GpuStat) {
    && (g.temperature.None? || g.temperature.value < 1000)
    && (g.fanSpeed.None? || g.fanSpeed.value < 1000)
    && (g.utilization.None? || g.utilization.value < 1000)
    && (g.utilizationEnc.None? || g.utilizationEnc.value < 1000)
    && (g.utilizationDec.None? || g.utilizationDec.value < 1000)
    && (g.powerDraw.None? || g.powerDraw.value < 1000)
    && (g.powerLimit.None? || g.powerLimit.value < 1000)
    && g.memoryUsed < 100000 && g.memoryTotal < 100000
  }

  /** The width of the metric columns, which depends on the options only. */
  function MetricsWidth(opts: DisplayOptions): nat {
    7 + (if opts.showFanSpeed then 7 else 0) + 5 + (if opts.showCodec then 21 else 0)
    + (if opts.showPower then 7 + (if opts.showPowerLimit then 7 else 0) else 0) + 19
  }

  /** Column alignment: on every device whose values fit, the metrics take
      the same number of chars, so the process segments line up. */
  lemma MetricsAligned(g: GpuStat, opts: DisplayOptions)
    requires Fits(g)
    ensures |Metrics(g, opts)| == MetricsWidth(opts)
  {
    LeadingFieldsWidth(g, opts);
    CodecFieldWidth(g, opts);
    PowerFieldWidth(g, opts);
    MemoryFieldWidth(g);
  }

  lemma LeadingFieldsWidth(g: GpuStat, opts: DisplayOptions)
    requires g.temperature.None? || g.temperature.value < 1000
    requires g.fanSpeed.None? || g.fanSpeed.value < 1000
    requires g.utilization.None? || g.utilization.value < 1000
    ensures |TemperatureField(g)| == 7
    ensures |FanField(g, opts)| == if opts.showFanSpeed then 7 else 0
    ensures |UtilizationField(g)| == 5
  {
    Metric3Width(g.temperature);
    Metric3Width(g.fanSpeed);
    Metric3Width(g.utilization);
  }

  lemma CodecFieldWidth(g: GpuStat, opts: DisplayOptions)
    requires g.utilizationEnc.None? || g.utilizationEnc.value < 1000
    requires g.utilizationDec.None? || g.utilizationDec.value < 1000
    ensures |CodecField(g, opts)| == if opts.showCodec then 21 else 0
  {
    Metric3Width(g.utilizationEnc);
    Metric3Width(g.utilizationDec);
  }

  lemma PowerFieldWidth(g: GpuStat, opts: DisplayOptions)
    requires g.powerDraw.None? || g.powerDraw.value < 1000
    requires g.powerLimit.None? || g.powerLimit.value < 1000
    ensures |PowerField(g, opts)| == if opts.showPower then 7 + (if opts.showPowerLimit then 7 else 0) else 0
  {
    Metric3Width(g.powerDraw);
    Metric3Width(g.powerLimit);
  }

  lemma Metric3Width(v: Option<nat>)
    requires v.None? || v.value < 1000
    ensures |Metric3(v)| == 3
  {
    Metric3Shape(v);
  }

  lemma MemoryFieldWidth(g: GpuStat)
    requires g.memoryUsed < 100000 && g.memoryTotal < 100000
    ensures |MemoryField(g)| == 19
  {
    assert Pow10(5) == 100000 by {
      assert Pow10(1) == 10; assert Pow10(2) == 100; assert Pow10(3) == 1000; assert Pow10(4) == 10000;
    }
    DecimalLength(g.memoryUsed, 5);
    DecimalLength(g.memoryTotal, 5);
  }

  lemma EndsWithTail(a: string, b: string)
    ensures EndsWith(a + b, b)
  {
    assert (a + b)[|a|..] == b;
  }

  lemma EndsWithExtend(a: string, suffix: string, b: string)
    requires EndsWith(a, suffix)
    ensures EndsWith(a + b, suffix + b)
  {
    assert (a + b)[|a + b| - |suffix + b|..] == a[|a| - |suffix|..] + b;
  }

  lemma EndsWithPrepend(a: string, b: string, suffix: string)
    requires EndsWith(b, suffix)
    ensures EndsWith(a + b, suffix)
  {
    assert (a + b)[|a + b| - |suffix|..] == b[|b| - |suffix|..];
  }

  lemma DeviceColumnsEnding(g: GpuStat, opts: DisplayOptions)
    ensures EndsWith(DeviceColumns(g, opts), " MB")
  {
    EndsWithTail(" | " + Rjust(NatToString(g.memoryUsed), 5) + " / " + Rjust(NatToString(g.memoryTotal), 5), " MB");
    EndsWithPrepend(TemperatureField(g) + FanField(g, opts) + UtilizationField(g) + CodecField(g, opts) + PowerField(g, opts),
                    MemoryField(g), " MB");
    EndsWithPrepend(IndexField(g.index) + NameColumn(g.name, opts.gpunameWidth.GetOr(DEFAULT_GPUNAME_WIDTH)),
                    Metrics(g, opts), " MB");
  }

  /** The process segment: nothing when hidden, the unsupported marker, a
      bare separator for no processes, else ending with the last memory. */
  lemma ProcessSegmentShape(processes: Option<seq<GpuProcessInfo>>, opts: DisplayOptions)
    ensures opts.noProcesses ==> ProcessSegment(processes, opts) == []
    ensures !opts.noProcesses && processes.None? ==> ProcessSegment(processes, opts) == " | (Not Supported)"
    ensures !opts.noProcesses && processes == Some([]) ==> ProcessSegment(processes, opts) == " |"
    ensures !opts.noProcesses && processes.Some? && processes.value != [] ==>
              EndsWith(ProcessSegment(processes, opts), "M)")
  {
    if !opts.noProcesses && processes.Some? && processes.value != [] {
      var ps := processes.value;
      var p := ps[|ps| - 1];
      EndsWithTail(" " + UserPart(p, opts) + CommandPart(p, opts) + PidPart(p, opts) + "(" + OptRepr(p.gpuMemoryUsage, "?"), "M)");
      EndsWithPrepend(ProcessEntries(ps[..|ps| - 1], opts), ProcessEntry(p, opts), "M)");
      EndsWithPrepend(" |", ProcessEntries(ps, opts), "M)");
    }
  }

  lemma JoinedEndings()
    ensures " MB" + " | (Not Supported)" == " MB | (Not Supported)"
    ensures " MB" + " |" == " MB |"
  {
  }

  /** How a line ends: at the memory column when processes are hidden;
      with "(Not Supported)" for an unsupported list; with a bare " |" for
      an empty one; with the last process's "(...M)" otherwise. */
  lemma LineEnding(g: GpuStat, opts: DisplayOptions)
    ensures opts.noProcesses ==> EndsWith(Line(g, opts), " MB")
    ensures !opts.noProcesses && g.processes.None? ==> EndsWith(Line(g, opts), " MB | (Not Supported)")
    ensures !opts.noProcesses && g.processes == Some([]) ==> EndsWith(Line(g, opts), " MB |")
    ensures !opts.noProcesses && g.processes.Some? && g.processes.value != [] ==> EndsWith(Line(g, opts), "M)")
  {
    var body := DeviceColumns(g, opts);
    var segment := ProcessSegment(g.processes, opts);
    assert Line(g, opts) == body + segment;
    DeviceColumnsEnding(g, opts);
    ProcessSegmentShape(g.processes, opts);
    if opts.noProcesses {
      assert body + segment == body;
    } else if g.processes.None? {
      EndsWithExtend(body, " MB", " | (Not Supported)");
      JoinedEndings();
    } else if g.processes.value == [] {
      EndsWithExtend(body, " MB", " |");
      JoinedEndings();
    } else {
      EndsWithPrepend(body, segment, "M)");
    }
  }

  /** Each process segment starts with a space and ends with its memory in
      parentheses, "?" when unknown. */
  lemma ProcessEntryShape(p: GpuProcessInfo, opts: DisplayOptions)
    ensures ProcessEntry(p, opts)[0] == ' '
    ensures EndsWith(ProcessEntry(p, opts), "(" + OptRepr(p.gpuMemoryUsage, "?") + "M)")
  {
  }

  /** The ':' between username and command appears exactly when both are
      shown, i.e. when the user and the command are both asked for. */
  lemma ColonIffUserAndCommand(p: GpuProcessInfo, opts: DisplayOptions)
    requires ':' !in p.username.GetOr("--") && ':' !in p.command
    ensures ':' in ProcessEntry(p, opts) <==> opts.showUser && opts.showCmd
  {
    NoCharInDecimal(':', p.pid);
    if p.realPid.Some? { NoCharInDecimal(':', p.realPid.value); }
    if p.gpuMemoryUsage.Some? { NoCharInDecimal(':', p.gpuMemoryUsage.value); }
    assert ':' in ProcessEntry(p, opts) <==> ':' in CommandPart(p, opts);
  }

  /** The "->" host-pid arrow appears exactly when the pid is shown and the
      process was resolved through the namespace mapping. */
  lemma ArrowIffRealPid(p: GpuProcessInfo, opts: DisplayOptions)
    requires '>' !in p.username.GetOr("--") && '>' !in p.command
    ensures '>' in ProcessEntry(p, opts) <==> opts.showPid && p.realPid.Some?
  {
    NoCharInDecimal('>', p.pid);
    if p.realPid.Some? { NoCharInDecimal('>', p.realPid.value); }
    if p.gpuMemoryUsage.Some? { NoCharInDecimal('>', p.gpuMemoryUsage.value); }
    assert '>' in ProcessEntry(p, opts) <==> '>' in PidPart(p, opts);
  }

  lemma NoCharInDecimal(c: char, n: nat)
    requires !IsDigit(c)
    ensures c !in NatToString(n)
  {
  }

  /** The scenario process: user "alice" running "train.py" with 2048 MB. */
  function ScenarioProcess(realPid: Option<U32>): GpuProcessInfo {
    GpuProcessInfo(500, Some("alice"), "train.py", Some(2048), realPid, realPid.Some?)
  }

  /** With user and command asked for, the entry reads " alice:train.py(2048M)". */
  lemma ScenarioUserAndCommand(opts: DisplayOptions)
    requires !opts.showPid && opts.showUser && opts.showCmd
    ensures ProcessEntry(ScenarioProcess(None), opts) == " alice:train.py(2048M)"
  {
    var p := ScenarioProcess(None);
    Decimal2048();
    assert MemoryPart(p) == "(2048M)";
    assert " " + UserPart(p, opts) + CommandPart(p, opts) == " alice:train.py";
  }

  /** With neither asked for, the username is still shown: it is hidden only
      when the command alone is asked for. */
  lemma ScenarioNeither(opts: DisplayOptions)
    requires !opts.showPid && !opts.showUser && !opts.showCmd
    ensures ProcessEntry(ScenarioProcess(None), opts) == " alice(2048M)"
  {
    var p := ScenarioProcess(None);
    Decimal2048();
    assert MemoryPart(p) == "(2048M)";
    assert " " + UserPart(p, opts) + CommandPart(p, opts) == " alice";
  }

  /** With the command alone asked for, the username is dropped. */
  lemma ScenarioCommandOnly(opts: DisplayOptions)
    requires !opts.showPid && !opts.showUser && opts.showCmd
    ensures ProcessEntry(ScenarioProcess(None), opts) == " train.py(2048M)"
  {
    var p := ScenarioProcess(None);
    Decimal2048();
    assert MemoryPart(p) == "(2048M)";
    assert " " + UserPart(p, opts) + CommandPart(p, opts) == " train.py";
  }

  lemma Decimal2048()
    ensures NatToString(2048) == "2048"
  {
    assert NatToString(2) == "2";
    assert NatToString(20) == "20";
    assert NatToString(204) == "204";
  }

  /** A process resolved through the namespace mapping shows both pids. */
  lemma PidScenario(opts: DisplayOptions)
    requires opts.showPid
    ensures PidPart(ScenarioProcess(Some(12345)), opts) == "/500->12345"
  {
    Decimal500();
    Decimal12345();
  }

  lemma Decimal500()
    ensures NatToString(500) == "500"
  {
    assert NatToString(5) == "5";
    assert NatToString(50) == "50";
  }

  lemma Decimal12345()
    ensures NatToString(12345) == "12345"
  {
    assert NatToString(1) == "1";
    assert NatToString(12) == "12";
    assert NatToString(123) == "123";
    assert NatToString(1234) == "1234";
  }
}

=== FILE: text.dfy ===
/** Values and text shared by the sampler, the renderer and the command line:
    the optional/fallible wrappers, the fixed-width integer ranges, UTF-8 byte
    lengths of Rust strings, decimal rendering and parsing, and splitting. */
module Text {

  datatype Option<+T> = None | Some(value: T) {
    function GetOr(default: T): T {
      match this
      case Some(v) => v
      case None => default
    }
  }

  datatype Result<+T, +E> = Ok(value: T) | Err(error: E) {
    /** Rust's `.ok()`: drops the error. */
    function ToOption(): Option<T> {
      match this
      case Ok(v) => Some(v)
      case Err(_) => None
    }
  }

  type U32 = n: nat | n < 0x1_0000_0000
  type U64 = n: nat | n < 0x1_0000_0000_0000_0000

  // ---------------------------------------------------------------------------
  // UTF-8 lengths. A Rust `String` is UTF-8; `len()` counts bytes while the
  // padding of `format!("{:>w$}", ..)` counts chars, which here are `|s|`.
  // ---------------------------------------------------------------------------

  /** Number of bytes the UTF-8 encoding of `c` takes. */
  function Utf8Len(c: char): (n: nat)
    ensures 1 <= n <= 4
    ensures n == 1 <==> c as int < 0x80
  {
    if c as int < 0x80 then 1
    else if c as int < 0x800 then 2
    else if c as int < 0x10000 then 3
    else 4
  }

  /** Rust's `str::len`: the length of the UTF-8 encoding in bytes. */
  function ByteLen(s: string): (n: nat)
    ensures n >= |s|
    ensures s != [] ==> n >= Utf8Len(s[0])
  {
    if s == [] then 0 else Utf8Len(s[0]) + ByteLen(s[1..])
  }

  predicate IsAscii(s: string) {
    forall i :: 0 <= i < |s| ==> s[i] as int < 0x80
  }

  lemma {:induction false} ByteLenConcat(a: string, b: string)
    ensures ByteLen(a + b) == ByteLen(a) + ByteLen(b)
  {
    if a != [] {
      DropFirstOfConcat(a, b);
      ByteLenConcat(a[1..], b);
    } else {
      assert a + b == b;
    }
  }

  lemma ByteLenCons(c: char, s: string)
    ensures ByteLen([c] + s) == Utf8Len(c) + ByteLen(s)
  {
    DropFirstOfConcat([c], s);
  }

  lemma ByteLenSnoc(s: string, c: char)
    ensures ByteLen(s + [c]) == ByteLen(s) + Utf8Len(c)
  {
    ByteLenConcat(s, [c]);
    ByteLenCons(c, []);
    assert [c] + [] == [c];
  }

  lemma {:induction false} ByteLenAscii(s: string)
    requires IsAscii(s)
    ensures ByteLen(s) == |s|
  {
    if s != [] {
      assert IsAscii(s[1..]) by {
        forall i | 0 <= i < |s[1..]| ensures s[1..][i] as int < 0x80 {
          assert s[1..][i] == s[i + 1];
        }
      }
      ByteLenAscii(s[1..]);
    }
  }

  /** `s[..n]` on a Rust string: None where Rust panics, because byte `n` is
      not a char boundary of `s` or lies beyond its end. */
  function BytePrefix(s: string, n: nat): Option<string> {
    if n == 0 then Some([])
    else if s == [] || Utf8Len(s[0]) > n then None
    else
      match BytePrefix(s[1..], n - Utf8Len(s[0]))
      case None => None
      case Some(rest) => Some([s[0]] + rest)
  }

  /** `s[ByteLen(s) - n..]` on a Rust string: None where Rust panics. */
  function ByteSuffix(s: string, n: nat): Option<string> {
    if n == 0 then Some([])
    else if s == [] || Utf8Len(s[|s| - 1]) > n then None
    else
      match ByteSuffix(s[..|s| - 1], n - Utf8Len(s[|s| - 1]))
      case None => None
      case Some(rest) => Some(rest + [s[|s| - 1]])
  }

  /** The longest prefix of `s` whose encoding fits in `n` bytes. */
  function FloorPrefix(s: string, n: nat): string {
    if s == [] || Utf8Len(s[0]) > n then []
    else [s[0]] + FloorPrefix(s[1..], n - Utf8Len(s[0]))
  }

  /** The longest suffix of `s` whose encoding fits in `n` bytes. */
  function CeilSuffix(s: string, n: nat): string {
    if s == [] || Utf8Len(s[|s| - 1]) > n then []
    else CeilSuffix(s[..|s| - 1], n - Utf8Len(s[|s| - 1])) + [s[|s| - 1]]
  }

  /** `r` is a prefix of `s` that fits in `n` bytes, and one more char of
      `s` would not. */
  predicate LongestPrefixWithin(s: string, n: nat, r: string) {
    && ByteLen(r) <= n && |r| <= |s| && r == s[..|r|]
    && (|r| < |s| ==> ByteLen(r) + Utf8Len(s[|r|]) > n)
  }

  /** `r` is a suffix of `s` that fits in `n` bytes, and one more char of
      `s` would not. */
  predicate LongestSuffixWithin(s: string, n: nat, r: string) {
    && ByteLen(r) <= n && EndsWith(s, r)
    && (|r| < |s| ==> ByteLen(r) + Utf8Len(s[|s| - |r| - 1]) > n)
  }

  lemma {:induction false} FloorPrefixLongest(s: string, n: nat)
    ensures LongestPrefixWithin(s, n, FloorPrefix(s, n))
  {
    if s != [] && Utf8Len(s[0]) <= n {
      var rest := FloorPrefix(s[1..], n - Utf8Len(s[0]));
      FloorPrefixLongest(s[1..], n - Utf8Len(s[0]));
      ByteLenCons(s[0], rest);
      ConsPrefix(s, s[1..], rest);
    }
  }

  lemma {:induction false} CeilSuffixLongest(s: string, n: nat)
    ensures LongestSuffixWithin(s, n, CeilSuffix(s, n))
  {
    if s != [] && Utf8Len(s[|s| - 1]) <= n {
      var init := s[..|s| - 1];
      var last := s[|s| - 1];
      var rest := CeilSuffix(init, n - Utf8Len(last));
      assert CeilSuffix(s, n) == rest + [last];
      CeilSuffixLongest(init, n - Utf8Len(last));
      ByteLenSnoc(rest, last);
      SnocSuffix(s, init, rest);
      assert EndsWith(s, rest + [last]);
    } else {
      assert CeilSuffix(s, n) == [];
      assert s[|s|..] == [];
    }
  }

  /** A char put in front of a prefix of the rest is a prefix. */
  lemma ConsPrefix<T>(s: seq<T>, tail: seq<T>, rest: seq<T>)
    requires s != [] && tail == s[1..] && |rest| <= |tail| && rest == tail[..|rest|]
    ensures [s[0]] + rest == s[..|rest| + 1]
    ensures |rest| < |tail| ==> tail[|rest|] == s[|rest| + 1]
  {
  }

  /** A char put after a suffix of the rest is a suffix. */
  lemma SnocSuffix<T>(s: seq<T>, init: seq<T>, rest: seq<T>)
    requires s != [] && init == s[..|s| - 1] && |rest| <= |init| && init[|init| - |rest|..] == rest
    ensures s[|s| - |rest| - 1..] == rest + [s[|s| - 1]]
    ensures |rest| < |init| ==> init[|init| - |rest| - 1] == s[|s| - |rest| - 2]
  {
  }

  lemma {:induction false} BytePrefixIsFloor(s: string, n: nat)
    requires BytePrefix(s, n).Some?
    ensures FloorPrefix(s, n) == BytePrefix(s, n).value
  {
    if n != 0 {
      BytePrefixIsFloor(s[1..], n - Utf8Len(s[0]));
    } else if s != [] {
      assert Utf8Len(s[0]) > 0;
    }
  }

  lemma {:induction false} ByteSuffixIsCeil(s: string, n: nat)
    requires ByteSuffix(s, n).Some?
    ensures CeilSuffix(s, n) == ByteSuffix(s, n).value
  {
    if n != 0 {
      ByteSuffixIsCeil(s[..|s| - 1], n - Utf8Len(s[|s| - 1]));
    } else if s != [] {
      assert Utf8Len(s[|s| - 1]) > 0;
    }
  }

  /** A prefix slice that does not panic is exactly `n` bytes long. */
  lemma {:induction false} BytePrefixExact(s: string, n: nat)
    requires BytePrefix(s, n).Some?
    ensures ByteLen(BytePrefix(s, n).value) == n
  {
    if n != 0 {
      var rest := BytePrefix(s[1..], n - Utf8Len(s[0]));
      BytePrefixExact(s[1..], n - Utf8Len(s[0]));
      assert BytePrefix(s, n).value == [s[0]] + rest.value;
      ByteLenCons(s[0], rest.value);
    }
  }

  /** A suffix slice that does not panic is exactly `n` bytes long. */
  lemma {:induction false} ByteSuffixExact(s: string, n: nat)
    requires ByteSuffix(s, n).Some?
    ensures ByteLen(ByteSuffix(s, n).value) == n
  {
    if n != 0 {
      var rest := ByteSuffix(s[..|s| - 1], n - Utf8Len(s[|s| - 1]));
      ByteSuffixExact(s[..|s| - 1], n - Utf8Len(s[|s| - 1]));
      assert ByteSuffix(s, n).value == rest.value + [s[|s| - 1]];
      ByteLenSnoc(rest.value, s[|s| - 1]);
    }
  }

  /** A prefix slice at a char boundary does not panic: it gives the chars
      before that boundary. */
  lemma {:induction false} BytePrefixAtBoundary(s: string, k: nat)
    requires k <= |s|
    ensures BytePrefix(s, ByteLen(s[..k])) == Some(s[..k])
  {
    if k > 0 {
      var rest := s[1..][..k - 1];
      assert s[..k] == [s[0]] + rest;
      BytePrefixAtBoundary(s[1..], k - 1);
      ByteLenCons(s[0], rest);
    } else {
      assert s[..k] == [];
    }
  }

  /** A tail slice at a char boundary does not panic: it gives the chars
      after that boundary. */
  lemma {:induction false} ByteSuffixAtBoundary(s: string, k: nat)
    requires k <= |s|
    ensures ByteSuffix(s, ByteLen(s[k..])) == Some(s[k..])
  {
    if k < |s| {
      var init, c := s[..|s| - 1], s[|s| - 1];
      assert s[k..] == init[k..] + [c];
      ByteSuffixAtBoundary(init, k);
      ByteLenSnoc(init[k..], c);
    } else {
      assert s[k..] == [];
    }
  }

  /** Cutting a string at its full byte length keeps all of it. */
  lemma {:induction false} BytePrefixWhole(s: string)
    ensures BytePrefix(s, ByteLen(s)) == Some(s)
  {
    if s != [] {
      BytePrefixWhole(s[1..]);
      assert [s[0]] + s[1..] == s;
    }
  }

  /** Where every char is one byte, every byte is a char boundary: no cut
      of length up to the text's own length panics. */
  lemma {:induction false} ByteSuffixOneByteChars(s: string, n: nat)
    requires ByteLen(s) == |s| && n <= |s|
    ensures ByteSuffix(s, n).Some?
  {
    if n != 0 {
      var init := s[..|s| - 1];
      OneByteCharsInit(s, init);
      ByteSuffixOneByteChars(init, n - 1);
    }
  }

  lemma OneByteCharsInit(s: string, init: string)
    requires s != [] && init == s[..|s| - 1] && ByteLen(s) == |s|
    ensures ByteLen(init) == |init| && Utf8Len(s[|s| - 1]) == 1
  {
    assert s == init + [s[|s| - 1]];
    ByteLenConcat(init, [s[|s| - 1]]);
  }

  /** Where every char is one byte the rounded suffix is the plain one, and
      it is `n` bytes long. */
  lemma {:induction false} CeilSuffixOneByteChars(s: string, n: nat)
    requires ByteLen(s) == |s| && n <= |s|
    ensures CeilSuffix(s, n) == s[|s| - n..] && ByteLen(s[|s| - n..]) == n
  {
    if n == 0 {
      if s != [] {
        assert Utf8Len(s[|s| - 1]) > 0;
      }
      assert s[|s|..] == [];
    } else {
      var init := s[..|s| - 1];
      var last := s[|s| - 1];
      OneByteCharsInit(s, init);
      CeilSuffixOneByteChars(init, n - 1);
      var rest := init[|init| - (n - 1)..];
      assert CeilSuffix(s, n) == rest + [last];
      SnocSuffix(s, init, rest);
      ByteLenSnoc(rest, last);
    }
  }

  // ---------------------------------------------------------------------------
  // Decimal numbers, as Rust's `Display` for unsigned integers writes them.
  // ---------------------------------------------------------------------------

  predicate IsDigit(c: char) { '0' <= c <= '9' }

  predicate AllDigits(s: string) { forall i :: 0 <= i < |s| ==> IsDigit(s[i]) }

  function DigitChar(d: nat): (c: char)
    requires d < 10
    ensures IsDigit(c) && c as int - '0' as int == d
  {
    (d + '0' as int) as char
  }

  /** The value of a string of decimal digits, most significant first. */
  function DecimalValue(s: string): nat
    requires AllDigits(s)
  {
    if s == [] then 0
    else DecimalValue(s[..|s| - 1]) * 10 + (s[|s| - 1] as int - '0' as int)
  }

  /** Decimal rendering: at least one digit and no leading zero. */
  function NatToString(n: nat): (r: string)
    ensures |r| >= 1 && AllDigits(r)
    ensures |r| > 1 ==> r[0] != '0'
  {
    if n < 10 then [DigitChar(n)]
    else NatToString(n / 10) + [DigitChar(n % 10)]
  }

  /** Reading back a rendered number gives the number. */
  lemma {:induction false} DecimalRoundTrip(n: nat)
    ensures DecimalValue(NatToString(n)) == n
  {
    if n >= 10 {
      var s := NatToString(n);
      assert s[..|s| - 1] == NatToString(n / 10);
      DecimalRoundTrip(n / 10);
    }
  }

  /** A number below 10^k takes at most k digits. */
  lemma {:induction false} DecimalLength(n: nat, k: nat)
    requires k >= 1 && n < Pow10(k)
    ensures |NatToString(n)| <= k
  {
    if n >= 10 {
      assert Pow10(1) == 10;
      assert k >= 2;
      DecimalLength(n / 10, k - 1);
    }
  }

  function Pow10(k: nat): (p: nat)
    ensures p >= 1
  {
    if k == 0 then 1 else 10 * Pow10(k - 1)
  }

  /** `k` zero digits. */
  function Zeros(k: nat): (z: string)
    ensures |z| == k && AllDigits(z)
  {
    if k == 0 then [] else ['0'] + Zeros(k - 1)
  }

  /** One leading zero does not change a value. */
  lemma {:induction false} DecimalLeadingZero(x: string)
    requires AllDigits(x)
    ensures DecimalValue(['0'] + x) == DecimalValue(x)
  {
    if x != [] {
      var init := x[..|x| - 1];
      assert (['0'] + x)[..|x|] == ['0'] + init;
      DecimalLeadingZero(init);
    }
  }

  /** Leading zeros do not change a value. */
  lemma {:induction false} DecimalLeadingZeros(k: nat, x: string)
    requires AllDigits(x)
    ensures DecimalValue(Zeros(k) + x) == DecimalValue(x)
  {
    if k > 0 {
      assert Zeros(k) + x == ['0'] + (Zeros(k - 1) + x);
      DecimalLeadingZero(Zeros(k - 1) + x);
      DecimalLeadingZeros(k - 1, x);
    } else {
      assert Zeros(0) + x == x;
    }
  }

  /** A digit string with no leading zero has value at least 10^(length-1). */
  lemma {:induction false} DecimalNoLeadingZero(d: string)
    requires |d| >= 1 && AllDigits(d) && d[0] != '0'
    ensures DecimalValue(d) >= 1
    ensures |d| > 1 ==> DecimalValue(d) >= 10
  {
    if |d| > 1 {
      DecimalNoLeadingZero(d[..|d| - 1]);
    }
  }

  /** A digit string with no leading zero is the rendering of its value. */
  lemma {:induction false} CanonicalDecimal(d: string)
    requires |d| >= 1 && AllDigits(d) && (|d| > 1 ==> d[0] != '0')
    ensures NatToString(DecimalValue(d)) == d
  {
    var v := DecimalValue(d);
    if |d| == 1 {
      assert v == d[0] as int - '0' as int;
      assert [DigitChar(v)] == d;
    } else {
      var init := d[..|d| - 1];
      var c := d[|d| - 1];
      DecimalNoLeadingZero(d);
      CanonicalDecimal(init);
      assert v / 10 == DecimalValue(init) && v % 10 == c as int - '0' as int;
      assert DigitChar(v % 10) == c;
      assert init + [c] == d;
    }
  }

  /** Every digit string is its value's rendering after some leading zeros. */
  lemma {:induction false} PaddedDecimal(d: string)
    requires |d| >= 1 && AllDigits(d)
    ensures exists k: nat :: d == Zeros(k) + NatToString(DecimalValue(d))
  {
    if |d| == 1 || d[0] != '0' {
      CanonicalDecimal(d);
      assert Zeros(0) + d == d;
    } else {
      var rest := d[1..];
      PaddedDecimal(rest);
      var k: nat :| rest == Zeros(k) + NatToString(DecimalValue(rest));
      assert d == ['0'] + rest;
      PadOneMore(rest, k);
    }
  }

  /** One more leading zero keeps the value and lengthens the padding. */
  lemma PadOneMore(rest: string, k: nat)
    requires AllDigits(rest) && rest == Zeros(k) + NatToString(DecimalValue(rest))
    ensures ['0'] + rest == Zeros(k + 1) + NatToString(DecimalValue(['0'] + rest))
  {
    DecimalLeadingZero(rest);
    assert Zeros(k + 1) == ['0'] + Zeros(k);
  }

  // ---------------------------------------------------------------------------
  // Characters and substrings.
  // ---------------------------------------------------------------------------

  /** Rust's `char::is_whitespace`: the Unicode White_Space property. */
  predicate IsWhitespace(c: char) {
    || ('\U{0009}' <= c <= '\U{000D}') || c == ' ' || c == '\U{0085}' || c == '\U{00A0}'
    || c == '\U{1680}' || ('\U{2000}' <= c <= '\U{200A}') || c == '\U{2028}' || c == '\U{2029}'
    || c == '\U{202F}' || c == '\U{205F}' || c == '\U{3000}'
  }

  /** Rust's `str::trim_start`: drops leading whitespace. */
  function TrimStart(s: string): (r: string)
    ensures |r| <= |s| && r == s[|s| - |r|..]
    ensures r != [] ==> !IsWhitespace(r[0])
    ensures forall i :: 0 <= i < |s| - |r| ==> IsWhitespace(s[i])
  {
    if s != [] && IsWhitespace(s[0]) then TrimStart(s[1..]) else s
  }

  /** Rust's `str::trim_end`: drops trailing whitespace. */
  function TrimEnd(s: string): (r: string)
    ensures |r| <= |s| && r == s[..|r|]
    ensures r != [] ==> !IsWhitespace(r[|r| - 1])
    ensures forall i :: |r| <= i < |s| ==> IsWhitespace(s[i])
  {
    if s != [] && IsWhitespace(s[|s| - 1]) then TrimEnd(s[..|s| - 1]) else s
  }

  /** Rust's `str::trim`: leading and trailing whitespace cut. */
  function Trim(s: string): (r: string)
    ensures |r| <= |s|
    ensures r != [] ==> !IsWhitespace(r[0]) && !IsWhitespace(r[|r| - 1])
  {
    TrimEnd(TrimStart(s))
  }

  /** Trimming cuts whitespace at both ends, and only that. */
  lemma TrimCutsOnlyWhitespace(s: string)
    ensures exists i :: TrimmedAt(s, i, Trim(s))
  {
    var start := TrimStart(s);
    assert TrimmedAt(s, |s| - |start|, Trim(s));
  }

  /** `r` is `s` from `i` on, with only whitespace around it. */
  predicate TrimmedAt(s: string, i: nat, r: string) {
    && i + |r| <= |s| && r == s[i..i + |r|]
    && (forall j :: 0 <= j < i ==> IsWhitespace(s[j]))
    && (forall j :: i + |r| <= j < |s| ==> IsWhitespace(s[j]))
  }

  /** Text without whitespace at either end is its own trim; in particular
      a string of digits. */
  lemma TrimUnchanged(s: string)
    requires s != [] ==> !IsWhitespace(s[0]) && !IsWhitespace(s[|s| - 1])
    ensures Trim(s) == s
  {
  }

  /** Rust's `str::ends_with` for a string pattern. */
  predicate EndsWith(s: string, suffix: string) {
    |suffix| <= |s| && s[|s| - |suffix|..] == suffix
  }

  /** Rust's `str::contains` for a string pattern. */
  predicate Contains(s: string, pattern: string) {
    pattern <= s || (s != [] && Contains(s[1..], pattern))
  }

  function Spaces(n: nat): (r: string)
    ensures |r| == n && forall i :: 0 <= i < n ==> r[i] == ' '
  {
    seq(n, _ => ' ')
  }

  // Generic sequence steps, stated once so that proofs about strings and
  // lists of strings need not re-derive them on their own element types.

  lemma Assoc<T>(a: seq<T>, b: seq<T>, c: seq<T>)
    ensures a + b + c == a + (b + c)
  {
  }

  lemma IndexMiddle<T>(a: seq<T>, b: seq<T>, c: seq<T>, k: nat)
    requires k < |b|
    ensures (a + b + c)[|a| + k] == b[k]
  {
  }

  lemma PrefixAndRest<T>(a: seq<T>, b: seq<T>)
    ensures a <= a + b && (a + b)[|a|..] == b
  {
    assert (a + b)[..|a|] == a;
  }

  lemma DropFirstOfConcat<T>(a: seq<T>, b: seq<T>)
    requires a != []
    ensures (a + b)[0] == a[0] && (a + b)[1..] == a[1..] + b
  {
  }

  /** `xs.iter().map(f).collect()`. */
  function Map<A, B>(xs: seq<A>, f: A -> B): (r: seq<B>)
    ensures |r| == |xs|
    ensures forall k :: 0 <= k < |xs| ==> r[k] == f(xs[k])
  {
    seq(|xs|, k requires 0 <= k < |xs| => f(xs[k]))
  }

  lemma MapDropFirst<A, B>(xs: seq<A>, f: A -> B)
    requires xs != []
    ensures Map(xs, f)[0] == f(xs[0]) && Map(xs, f)[1..] == Map(xs[1..], f)
  {
  }

  // ---------------------------------------------------------------------------
  // Splitting and joining on one separator char (Rust's `str::split(char)`).
  // ---------------------------------------------------------------------------

  /** Rust's `s.split(sep)`: always at least one piece, "" gives [""]. */
  function Split(s: string, sep: char): (r: seq<string>)
    ensures |r| >= 1
    ensures forall k :: 0 <= k < |r| ==> sep !in r[k]
  {
    if s == [] then [[]]
    else
      var rest := Split(s[1..], sep);
      if s[0] == sep then [[]] + rest
      else [[s[0]] + rest[0]] + rest[1..]
  }

  /** Rust's `parts.join(sep)`. */
  function Join(parts: seq<string>, sep: char): string
  {
    if parts == [] then []
    else if |parts| == 1 then parts[0]
    else parts[0] + [sep] + Join(parts[1..], sep)
  }

  lemma {:induction false} SplitNoSeparator(s: string, sep: char)
    requires sep !in s
    ensures Split(s, sep) == [s]
  {
    if s != [] {
      SplitNoSeparator(s[1..], sep);
      assert [s[0]] + s[1..] == s;
    }
  }

  /** Splitting distributes over a separator. */
  lemma {:induction false} SplitConcat(a: string, b: string, sep: char)
    ensures Split(a + [sep] + b, sep) == Split(a, sep) + Split(b, sep)
  {
    if a == [] {
      assert a + [sep] + b == [sep] + b;
      assert ([sep] + b)[1..] == b;
    } else {
      assert (a + [sep] + b)[1..] == a[1..] + [sep] + b;
      SplitConcat(a[1..], b, sep);
    }
  }

  /** Split undoes Join when no piece holds the separator. */
  lemma {:induction false} SplitJoin(parts: seq<string>, sep: char)
    requires |parts| >= 1
    requires forall k :: 0 <= k < |parts| ==> sep !in parts[k]
    ensures Split(Join(parts, sep), sep) == parts
  {
    SplitNoSeparator(parts[0], sep);
    if |parts| > 1 {
      SplitJoin(parts[1..], sep);
      SplitConcat(parts[0], Join(parts[1..], sep), sep);
    }
  }

  /** Join undoes Split. */
  lemma {:induction false} JoinSplit(s: string, sep: char)
    ensures Join(Split(s, sep), sep) == s
  {
    if s != [] {
      JoinSplit(s[1..], sep);
      var rest := Split(s[1..], sep);
      if s[0] == sep {
        assert Join([[]] + rest, sep) == [] + [sep] + Join(rest, sep);
      } else if |rest| > 1 {
        assert Join(rest, sep) == rest[0] + [sep] + Join(rest[1..], sep);
        assert ([[s[0]] + rest[0]] + rest[1..])[1..] == rest[1..];
      }
    }
  }
}
